=== FILE: README.md ===
# capsule-backend control plane — a Dafny model

This project models the decision logic of the capsule-backend control plane.
The backend builds a user's GitHub repository into a container image, deploys
it to a Kubernetes cluster behind a TLS ingress, and reaps deployments past
their lifetime. Seven pieces are modelled, one module each:

- `Kubernetes` (`kubernetes.dfy`): the cluster resource manager. It covers:
  - idempotent apply (read, then replace or create);
  - not-found error classification;
  - the Namespace, Deployment, Service and Ingress manifests;
  - the rollout poll;
  - the latest pod's event digest;
  - best-effort namespace deletion.

  The cluster is a map from (kind, namespace, name) to a manifest. Every API
  reply is a parameter.
- `StateTokens` (`state.dfy`): single-use sign-in state tokens with a
  five-minute lifetime. The clock readings and the random token are
  parameters.
- `Lifecycle` (`lifecycle.dfy`): the five-minute reaper. It deletes the
  namespace of every `active` deployment past its lifetime and marks the
  deployment `destroyed`.
- `DeployJob` (`deploy_job.dfy`): the deploy worker.
  - It derives the namespace, application name and URL.
  - It applies the four resources in order and waits for the rollout.
  - It moves the deployment `deploying → running | deploy_failed`.
- `DeploymentsService` (`deployments_service.dfy`): the two-deployment quota
  in front of a new deployment, and the page range of the listing.
- `BuildJob` (`build_job.dfy`): the build worker.
  - It marks the build `building`, runs six abstract steps, and records
    `success` with the image tag or `failed` with the logs.
  - It always removes the clone directory.
- `Crypto` (`crypto.dfy`): the start-up key check and the hex framing
  `iv ‖ ciphertext ‖ tag` around an abstract AES-256-GCM.

Shared modules:

- `Wrappers`: `Option` and `Result`.
- `Text`: the JavaScript string operations the services use, with the engine's
  edge cases:
  - `split` and `join`;
  - `substring` with clamping;
  - `trim`;
  - template rendering of `undefined`.
- `Records`: the `deployments` table as a list of rows updated by id.

Every call to something external is an injected outcome:
- the Kubernetes API;
- the Supabase store;
- the installation-token fetch;
- the git and docker commands;
- `fs.rm`.

Store writes whose errors the services ignore are recorded as actions in a
trace.

Where the code and the service's description disagree, the model follows the
code:

- The reaper selects rows whose status is `active`. The deploy worker marks
  deployments `running`, so a deployed application is never reaped
  (`Lifecycle.RunningNeverReaped`).
- The deploy worker calls `applyDeployment` and `applyService` without a port.
  The container port and the Service's target port are therefore undefined,
  modelled as `None` (`DeployJob.SuccessLeavesResources`).
- The reaper deletes the namespace stored on the row. Only `create` stores
  one, the placeholder `random`; the deploy worker creates its resources in
  `user-` and the first eight characters of the user id, and its status writes
  never store that name. So reaping never deletes the worker's namespace and
  its resources are never reclaimed (`Lifecycle.WorkerNamespaceNeverReaped`).
  A successful delete removes every resource in the deleted namespace, not
  only the row's own application (`Lifecycle.ReapingTakesSiblingApps`).
- The build worker runs `git clone` and `docker build`/`push` as local
  commands in a temporary directory, not in an ephemeral namespace and Job in
  the cluster (`BuildJob.Process`).
- The build worker records the image on success but never enqueues a deploy
  job and never touches the deployment row; nothing in the build worker hands
  a built image on to the deploy worker (`BuildJob.Process`).
- In `create`, an error that the activating update returns, rather than
  throws, is handed back as the result. The row then stays `provisioning`
  (`DeploymentsService.Create`).
- In `applyResource` the replace call sits in the same `try` as the read.
  So a replace that fails with a not-found error also falls through to
  create: a successful read does not rule out a create (`Kubernetes.Apply`).

## Model

| member | source | states |
|---|---|---|
| Kubernetes.IsNotFoundError | src/kubernetes/kubernetes.service.ts:56-77 | An error counts as not-found exactly when (a), (b) or (c) holds: (a) an object body has code 404; (b) a text body parses to a value with code 404; (c) the HTTP status is 404 and the body is not text that fails to parse or parses to null. |
| Kubernetes.UnparseableBodyHidesStatus | src/kubernetes/kubernetes.service.ts:61-74 | A 404 status behind an unparseable text body is not recognised; the same status with no body is. |
| Kubernetes.Apply | src/kubernetes/kubernetes.service.ts:27-54 | The read comes first and only once. Replace is called exactly when the read succeeds. Create is called exactly when the read or the replace fails with not-found. For each reply pattern the call list and the escaping error are exact: read then replace succeeds; read not-found then create, succeeding or failing; read, replace not-found, then create, succeeding or failing; a replace error that is not not-found escapes after two calls; any other read error is the only call and escapes; a failed create's error escapes. On success the key maps to the manifest; on error the cluster is unchanged. |
| Kubernetes.ApplyTwice | src/kubernetes/kubernetes.service.ts:36-45 | Against a cluster whose reads reflect its contents, applying a manifest twice succeeds. The first apply creates or replaces; the second replaces. The key holds the manifest and no other key changes. |
| Kubernetes.NamespaceFor | src/kubernetes/kubernetes.service.ts:81-85 | The Namespace manifest carries the given name. |
| Kubernetes.DeploymentFor | src/kubernetes/kubernetes.service.ts:102-122 | One replica; selector and template labels are both `app=<appName>`; one container named after the app with the image and the (possibly missing) port. |
| Kubernetes.ServiceFor | src/kubernetes/kubernetes.service.ts:143-152 | A ClusterIP Service selecting `app=<appName>`, mapping port 80 to the container port. |
| Kubernetes.IngressFor | src/kubernetes/kubernetes.service.ts:170-202 | One TLS entry for the host with secret `<appName>-tls`, one rule for the same host routing `/` (Prefix) to `<appName>:80`. |
| Kubernetes.ManifestsWireTogether | src/kubernetes/kubernetes.service.ts:102-202 | The Deployment selects its own pods. The Service targets the Deployment's pods and container port. Every Ingress host is TLS-covered, and every path reaches the Service's port. |
| Kubernetes.ApplyNamespace | src/kubernetes/kubernetes.service.ts:79-93 | On success the cluster is the old one with the namespace's key set to its manifest, every other key unchanged; on error the cluster is unchanged. |
| Kubernetes.ApplyDeployment | src/kubernetes/kubernetes.service.ts:95-139 | On success only the Deployment's key changes, to the built manifest with one replica and the app's container; on error nothing changes. |
| Kubernetes.ApplyService | src/kubernetes/kubernetes.service.ts:141-165 | On success only the Service's key changes, to the built manifest mapping port 80 to the given port; on error nothing changes. |
| Kubernetes.ApplyIngress | src/kubernetes/kubernetes.service.ts:167-220 | On success only the Ingress's key changes, to the built manifest carrying the host's TLS entry; on error nothing changes. |
| Kubernetes.OnTick | src/kubernetes/kubernetes.service.ts:234-281 | Past the timeout, the tick rejects. Otherwise a read error rejects. Otherwise the tick resolves exactly when all three replica counts equal the desired count, compared as optional values. The timer is cleared exactly when the tick does not keep waiting. A rejection on error carries the read's own error. |
| Kubernetes.WaitForDeployment | src/kubernetes/kubernetes.service.ts:222-283 | The wait settles at the first tick that does not keep waiting. It is ready there only on a complete rollout, times out only past the deadline with the pod-events message, and errors only on a failed read. Every earlier tick kept waiting. |
| Kubernetes.WaitIsBounded | src/kubernetes/kubernetes.service.ts:235-244 | Once a tick fires past the timeout, the wait has settled at or before it. |
| Kubernetes.LatestPod | src/kubernetes/kubernetes.service.ts:298-302 | The chosen pod has the greatest creation time, and no earlier-listed pod has that time (stable sort). |
| Kubernetes.FormatEvents | src/kubernetes/kubernetes.service.ts:312-313 | One `- type (reason): message` line per event, in order. |
| Kubernetes.LatestPodEvents | src/kubernetes/kubernetes.service.ts:285-319 | An empty pod list gives the no-pods message. A failed listing gives the unavailable message. No events gives the latest pod's name and phase. Otherwise the digest is the events' formatted lines joined by newlines, one line per event in order (`FormatEvents`). |
| Kubernetes.FormatEventIsOneLine | src/kubernetes/kubernetes.service.ts:313 | An event with single-line fields formats to a single line. |
| Kubernetes.EventDigestLines | src/kubernetes/kubernetes.service.ts:309-314 | With single-line event fields, splitting the digest on newlines gives back exactly one formatted line per event. |
| Kubernetes.CleanupNamespace | src/kubernetes/kubernetes.service.ts:321-330 | Never fails. A successful delete removes exactly the namespace and the resources in it. A failed delete leaves the cluster unchanged. |
| StateTokens.Generate | src/state/state.service.ts:15-19 | Adds exactly the new token with the user and the current time; every other entry is unchanged. |
| StateTokens.Sweep | src/state/state.service.ts:43-50 | Keeps exactly the entries not strictly older than five minutes, unchanged. |
| StateTokens.Verify | src/state/state.service.ts:21-41 | A user comes back exactly when the token was present and unexpired at both clock readings, and it is the token's user. The token is always gone afterwards. An unknown token leaves the swept store. |
| StateTokens.SingleUse | src/state/state.service.ts:30 | A second verification of the same token fails whatever the clocks say. |
| StateTokens.GenerateThenVerify | src/state/state.service.ts:15-40 | A token verified within five minutes of issue returns its user and is consumed. |
| StateTokens.TtlBoundary | src/state/state.service.ts:13 | Exactly 300000 ms old still verifies; 300001 ms does not. |
| StateTokens.SingleClockAgeCheckUnreachable | src/state/state.service.ts:22-38 | With one clock reading, a token that survives the sweep always verifies: the age check cannot reject it. |
| StateTokens.TwoClocksAgeCheckReachable | src/state/state.service.ts:22-38 | With a later second reading, a token that survived the sweep can still be refused by the age check. |
| Records.ApplyPatch | src/deployments/deployments.service.ts:65-73 | A patch sets the status and, when given, the namespace and url; all other columns are kept. |
| Records.UpdateById | src/lifecycle/lifecycle.service.ts:64-67 | Rows with the id are patched; every other row is unchanged. |
| Lifecycle.TtlMinutes | src/lifecycle/lifecycle.service.ts:17-20 | The lifetime is the configured value, or 60 minutes when none is configured. |
| Lifecycle.MinutesComparisonIsExact | src/lifecycle/lifecycle.service.ts:44-49 | Comparing the age in minutes with the lifetime is the same as comparing milliseconds with lifetime × 60000, strictly. |
| Lifecycle.Candidates | src/lifecycle/lifecycle.service.ts:28-49 | A row is a candidate exactly when its status is `active` and it is strictly older than the lifetime (`IsExpired`, the integer form of the minutes comparison). |
| Lifecycle.CandidatesSnoc | src/lifecycle/lifecycle.service.ts:44-57 | The candidates keep table order, one entry per row: a row added at the end appears at the end of the candidates exactly when it is one. |
| Lifecycle.CleanupRow | src/lifecycle/lifecycle.service.ts:62 | Only removes resources. A row whose namespace delete succeeds leaves that namespace cleared. Every resource outside that namespace, and everything when the delete fails or there is no namespace, stays. |
| Lifecycle.CleanupAll | src/lifecycle/lifecycle.service.ts:57-62 | Cleaning up a list of namespaces only removes resources. It clears each namespace whose delete succeeds, and keeps every resource that no successful delete covers. |
| Lifecycle.ReapingTakesSiblingApps | src/kubernetes/kubernetes.service.ts:321-330 | A successful delete of a row's namespace also removes the Deployment of any other application in that namespace. |
| Lifecycle.WorkerNamespaceNeverReaped | src/lifecycle/lifecycle.service.ts:62 | A row created with the placeholder namespace keeps it through the worker's `deploying` and `running` writes, and its cleanup leaves every resource in the worker's `user-` namespace in place. |
| Lifecycle.HandleCron | src/lifecycle/lifecycle.service.ts:26-86 | A failed fetch changes nothing. Otherwise every expired row's namespace is handed to cleanup, in order, and each successful delete clears its namespace. The cluster only loses resources, and keeps every resource that no successful delete covers. The table becomes the reference sweep: expired rows whose update succeeds are `destroyed`. A failure for one row does not stop the others. |
| Lifecycle.SweepChangesExactlyExpired | src/lifecycle/lifecycle.service.ts:57-85 | With unique ids, a row changes only by becoming `destroyed`, and exactly when it is active, expired, and its update succeeds. |
| Lifecycle.RunningNeverReaped | src/lifecycle/lifecycle.service.ts:28-31 | A `running` row is never changed by the sweep. |
| DeployJob.NamespaceName | src/deployments/deployments.processor.ts:57 | `user-` followed by the first eight characters of the user id, or the whole id when shorter. |
| DeployJob.NamespaceIsStable | src/deployments/deployments.processor.ts:57 | Two users whose ids share the first eight characters share a namespace. |
| DeployJob.AppName | src/deployments/deployments.processor.ts:56 | The second `/`-segment of the project, with no slash in it, or `undefined` when there is none. |
| DeployJob.AppNameOfRepo | src/deployments/deployments.processor.ts:56 | For `owner/repo` the application name is `repo`. |
| DeployJob.UrlParts | src/deployments/deployments.processor.ts:58 | `Url`, built on `Host`: the URL is `http://`, then the host `<app>-<namespace>.<domain>`, then `:` and the port; it is never empty. The domain defaults to `127.0.0.1.nip.io` and the port to `8081`. |
| DeployJob.IngressHostLowercases | src/kubernetes/kubernetes.service.ts:169 | `IngressHost`: the Ingress host is the URL's host with ASCII capitals lowered and every other character kept. |
| DeployJob.StatusPatch | src/deployments/deployments.processor.ts:86-96 | The patch has the status, and a url exactly when a non-empty url is given. |
| DeployJob.Process | src/deployments/deployments.processor.ts:26-84 | A missing build or a missing deployment throws with no write and no cluster call. Otherwise the job succeeds exactly when the namespace, deployment, service and ingress applies succeed, the project has an application name and the rollout is ready. For each first failure the run is exact: the plan up to that step, then `deploy_failed`, the cluster as the earlier applies left it, and the failing step's error. A missing application name fails at the deployment step. A rollout still pending stops before the final write. |
| DeployJob.ProcessTraceShape | src/deployments/deployments.processor.ts:50-83 | The trace is the whole plan, a prefix of it ending with `deploy_failed`, or the plan up to the rollout wait. |
| DeployJob.TerminalStatus | src/deployments/deployments.processor.ts:50-83 | `deploying` is written first. Success ends with `running` and the URL. Failure ends with `deploy_failed`. |
| DeployJob.SuccessLeavesResources | src/deployments/deployments.processor.ts:60-72 | On success the namespace, Deployment (with the job's image and no port), Service (with no target port) and Ingress (on the lower-cased host) are all in the cluster, each exactly as its builder makes it. |
| DeploymentsService.QuotaCount | src/deployments/deployments.service.ts:21-25 | Counts this user's `active` and `provisioning` rows. It is zero exactly when there are none. |
| DeploymentsService.QuotaCountAppend | src/deployments/deployments.service.ts:21-25 | Appending a row adds one to the count exactly when that row counts. |
| DeploymentsService.Create | src/deployments/deployments.service.ts:20-84 | A count error or null count inserts nothing, and so does a count of two or more. A failed insert leaves the table. Otherwise exactly one row is appended after the old table, with the inserted id, the user, project, project name, branch, Dockerfile path and creation time. The outcome is `Created`, a returned update error, or a thrown activation exactly as the update replies. On `Created` the appended row is the returned record: `active` with the placeholder namespace and url. A returned update error leaves it `provisioning` with no namespace or url. A throw marks it `failed`. |
| DeploymentsService.QuotaPreserved | src/deployments/deployments.service.ts:30-34 | From at most two counted deployments, a create leaves at most two. |
| DeploymentsService.ThirdRequestRefused | src/deployments/deployments.service.ts:30-34 | With two counted deployments a request is refused and the table is unchanged. |
| DeploymentsService.NormalisePage | src/deployments/deployments.service.ts:87 | The page is at least 1. A positive number is kept; zero, negatives, non-numbers and absence give 1. |
| DeploymentsService.NormalisePerPage | src/deployments/deployments.service.ts:88 | The page size is within 1..100. 1..100 is kept, above 100 gives 100 and negatives give 1. Zero, non-numbers and absence give 10. |
| DeploymentsService.PageRange | src/deployments/deployments.service.ts:90-91 | The range starts at or after row 0 and spans exactly one page size. |
| DeploymentsService.PagesAreContiguous | src/deployments/deployments.service.ts:90-91 | Page p ends just before page p+1 starts. |
| DeploymentsService.EveryRowOnExactlyOnePage | src/deployments/deployments.service.ts:90-91 | Each row index lies on page `row / perPage + 1` and on no other. |
| DeploymentsService.FindForUserRange | src/deployments/deployments.service.ts:86-91 | The requested range spans 1..100 rows from row 0 onwards. The default page size gives rows `(p-1)*10 .. p*10-1`. |
| BuildJob.UpdateBuildStatus | src/build/build.processor.ts:87-98 | `finished_at` is always set. The image and the logs are written exactly when non-empty. |
| BuildJob.FailureLogs | src/build/build.processor.ts:73-78 | The logs are the command's stderr when non-empty, else the error message. |
| BuildJob.ImageTag | src/build/build.processor.ts:51-52 | The image tag is never empty. |
| BuildJob.ImageTagParts | src/build/build.processor.ts:51-52 | `ImageTag`: the tag splits on `/` into registry, user and `<repo>:<sha>`, where repo is the second segment of `owner/repo`. |
| BuildJob.Finish | src/build/build.processor.ts:71-84 | The status write comes before the directory removal, which is always last. The write is `success` with the tag or `failed` with the logs, matching the result. A removal error replaces the job's result or error. |
| BuildJob.Process | src/build/build.processor.ts:24-85 | `building` is written first. Then come the steps (`Commands`, with the fetched token and the trimmed hash) up to the first failure, then the status write, then the removal. Success records `success` with the tag built from the trimmed hash; failure records `failed` with the failing step's logs and re-throws. |
| BuildJob.CleanupOnEveryPath | src/build/build.processor.ts:80-84 | On every path the clone directory `/tmp/build-<id>` is removed, as the last action and only then. |
| BuildJob.FailureRecordsNoImage | src/build/build.processor.ts:71-79 | A failed build writes `failed` with no image, and its logs are the stderr when there is one. |
| Text.Split | src/deployments/deployments.processor.ts:56 | `split` yields at least one piece and no piece holds the separator. |
| Text.Segment | src/deployments/deployments.processor.ts:56 | `split(sep)[k]` exists exactly when there are more than k pieces, and holds no separator. |
| Text.Show | src/deployments/deployments.processor.ts:58 | A template renders a present string as itself and an absent one as `undefined`. |
| Text.JoinSplit | src/deployments/deployments.processor.ts:56 | Joining the pieces of a split with the separator gives the string back. |
| Text.SplitJoin | src/build/build.processor.ts:51 | Splitting a join of separator-free pieces gives the pieces back. |
| Text.SecondSegmentOfPair | src/build/build.processor.ts:51 | The second `/`-segment of `owner/name` is `name`. |
| Text.AsciiLower | src/kubernetes/kubernetes.service.ts:169 | Same length; each ASCII capital becomes its lower-case letter and every other character is kept. |
| Text.Substring | src/deployments/deployments.processor.ts:57 | `substring(0, n)` is the first n characters, or the whole string when shorter. |
| Text.Trim | src/build/build.processor.ts:48-50 | The result is an infix of the input with only whitespace around it, and has no whitespace at either end. A string without surrounding whitespace is unchanged. |
| Text.TrimIsInfix | src/build/build.processor.ts:48-50 | Trimming the start and then the end leaves an infix with only whitespace on both sides. |
| Text.TrimIdempotent | src/build/build.processor.ts:48-50 | Trimming twice is trimming once. |
| Crypto.NewCryptoService | src/crypto/crypto.service.ts:18-29 | A key is accepted exactly when present and exactly 64 characters long; it decodes from hex. |
| Crypto.KeyCheckIsLengthOnly | src/crypto/crypto.service.ts:20-28 | 64 non-hex characters pass the check and decode to an empty key. |
| Crypto.HexKeyHas32Bytes | src/crypto/crypto.service.ts:28 | The hex form of a 32-byte key passes the check and decodes back to the key. |
| Crypto.ToHex | src/crypto/crypto.service.ts:40 | Two hex characters per byte. |
| Crypto.FromHex | src/crypto/crypto.service.ts:45 | Decodes at most one byte per two characters. A leading pair that is not two hex digits gives no bytes; a leading valid pair gives its byte first. |
| Crypto.FromHexToHex | src/crypto/crypto.service.ts:40-45 | Hex decoding undoes hex encoding. |
| Crypto.Slice | src/crypto/crypto.service.ts:46-51 | Within bounds, `slice(a, b)` is the bytes from a to b. |
| Crypto.Unframe | src/crypto/crypto.service.ts:45-51 | From 28 bytes on, the result is the first 12 bytes, the middle, and the last 16. From 16 to 27 bytes there is no ciphertext. |
| Crypto.UnframeFrame | src/crypto/crypto.service.ts:40-51 | Slicing `iv ‖ ct ‖ tag` recovers exactly the iv, the ciphertext and the tag. |
| Crypto.ShortBufferOverlaps | src/crypto/crypto.service.ts:46-51 | On 20 bytes the iv and the tag share bytes and there is no ciphertext. |
| Crypto.TinyBufferMiddle | src/crypto/crypto.service.ts:47-50 | On 15 bytes the negative end index counts from the end, so the ciphertext is bytes 12 and 13. |
| Crypto.Encrypt | src/crypto/crypto.service.ts:31-41 | With a 32-byte key the output is the lower-case hex of `iv ‖ ciphertext ‖ tag`, the sealed parts of the plaintext under that iv, of length `2 * (12 + |ciphertext| + |tag|)`. With any other key length the cipher's error escapes. |
| Crypto.Decrypt | src/crypto/crypto.service.ts:43-67 | Every failure is the single decryption error. Decryption succeeds exactly when the key has 32 bytes and the cipher opens the sliced iv, ciphertext and tag, and the result is what it opened. |
| Crypto.DecryptEncrypt | src/crypto/crypto.service.ts:31-67 | With a cipher that opens what it sealed and has 16-byte tags, decrypting an encryption gives the text back. |

## Left out

- The Kubernetes client, the Supabase store, BullMQ, Octokit, `child_process` and `fs.rm` are foreign I/O. Each call is an injected reply or outcome.
- Kubernetes.WaitForDeployment: `setInterval` and `Date.now()` become a finite sequence of ticks, each with its elapsed time and read reply. Ticks that never fire are not modelled; the outcome is `Pending` when the given ticks run out.
- Kubernetes.LatestPodEvents: creation timestamps are integers. Parsing date strings, and sorting with missing or invalid dates, are engine-defined and not modelled. The event list for the chosen pod is a parameter, so the `involvedObject.name=` selector is not modelled either.
- Kubernetes.ApplyIngress: takes the host directly. The deploy worker computes it as `new URL(url).hostname` would for ASCII hosts: the host part lower-cased (`DeployJob.IngressHost`).
- DeployJob.Process: `new URL` also converts non-ASCII host names to punycode and throws on a port or domain it cannot parse; neither is modelled, so a configured port or domain is taken as valid. A missing application name is modelled as the client's missing-parameter error raised before the Deployment read; the exact error value is not modelled.
- Kubernetes.WaitForDeployment: the 5000 ms poll interval is not a constant of the model; the ticks carry their elapsed times instead. The interval callbacks are asynchronous, so a read still in flight after five seconds can overlap the next tick's read; the model runs ticks one after another and does not model that overlap.
- Lifecycle.TtlMinutes: a configured value that is not a number would become NaN and reap nothing. Only integers are modelled.
- Lifecycle.MinutesComparisonIsExact: states the minutes division over exact reals. Floating-point rounding of the division is not modelled.
- DeploymentsService.NormalisePage: non-integer page and page-size values are not modelled.
- DeploymentsService.Create: the error objects thrown are not modelled. These are the count error, `ForbiddenException`, the `NotFoundException` class itself, and `InternalServerErrorException`; each appears only as an outcome tag. The row's id and `created_at` come from the store and are parameters.
- Text.Trim: strips the ASCII whitespace that shell output can carry. The Unicode space characters `trim` also strips are not modelled.
- Crypto.Encrypt: AES-256-GCM and `crypto.randomBytes` are parameters: a seal function and a given iv. UTF-8 encoding is inside the cipher functions.
- Crypto.Decrypt: the cipher's own checks are inside the abstract open function. These are the tag length check in `setAuthTag` and the tag verification in `final`.
- Log messages are not modelled, and neither are the store-write errors the services ignore. The token store's random token is a parameter.
- Strings are sequences of Dafny characters. JavaScript strings are UTF-16, so `substring(0, 8)` in the namespace name and the key's `.length` count UTF-16 code units; for text outside the Basic Multilingual Plane the counts differ, and that difference is not modelled.
- The queue hand-off from the build service to the build worker is not part of this model. The service enqueues `build_id` while the worker reads `buildId`.
- Concurrency is not modelled: the two workers running at once, and the check-then-insert race in the quota gate.
- Authentication, the GitHub controller and service, the logs gateway, the controllers, the DTO and the module wiring are not part of this model.

=== FILE: build_job.dfy ===
/** The build worker: mark the build `building`, fetch an installation
    token, clone the branch, read the short commit hash, log in to the
    registry, build and push `REGISTRY_URL/REGISTRY_USER/<repo>:<sha>`, and
    mark the build `success` with that image. Any failure marks it `failed`
    with the command's stderr (or the error message) and is re-thrown.
    Whatever happens, the clone directory is removed last.

    The token fetch and the shell commands are abstract steps whose replies
    are passed in; the store writes are recorded in the trace (the worker
    does not look at their errors). */
module BuildJob {
  import opened Wrappers
  import Text

  datatype BuildStatus = Queued | Building | Success | Failed

  /** A `builds` update payload: `finished_at` is always present, the image
      and the logs only when given. */
  datatype BuildPatch = BuildPatch(status: BuildStatus, finishedAt: int, imageUri: Option<string>, logs: Option<string>)

  /** `updateBuildStatus`: `finished_at` is set on every call, even for
      `building`; an empty image or log text is left out. */
  function UpdateBuildStatus(status: BuildStatus, now: int, imageUri: string, logs: string): (p: BuildPatch)
    ensures p.status == status && p.finishedAt == now
    ensures p.imageUri.Some? <==> imageUri != ""
    ensures p.imageUri.Some? ==> p.imageUri.value == imageUri
    ensures p.logs.Some? <==> logs != ""
    ensures p.logs.Some? ==> p.logs.value == logs
  {
    BuildPatch(status, now,
               if imageUri != "" then Some(imageUri) else None,
               if logs != "" then Some(logs) else None)
  }

  /** An error thrown by a step: command errors carry `stderr`, others only
      a message. */
  datatype ExecError = ExecError(stderr: Option<string>, message: string)

  /** `error.stderr || error.message`. */
  function FailureLogs(e: ExecError): (r: string)
    ensures e.stderr.Some? && e.stderr.value != "" ==> r == e.stderr.value
    ensures e.stderr.None? || e.stderr.value == "" ==> r == e.message
  {
    if e.stderr.Some? && e.stderr.value != "" then e.stderr.value else e.message
  }

  datatype Command =
    | FetchInstallationToken(installationId: string)
    | GitClone(branch: string, cloneUrl: string, dir: string)
    | RevParse(dir: string)
    | RegistryLogin(registryUrl: string, user: string)
    | DockerBuild(tag: string, dir: string)
    | DockerPush(tag: string)

  datatype StepReply = StepOk(stdout: string) | StepFailed(error: ExecError)

  /** The replies to the six steps, in the order they run, and the outcome
      of removing the clone directory. */
  datatype BuildReplies = BuildReplies(steps: seq<StepReply>, removal: Option<ExecError>)

  const StepCount := 6

  datatype BuildEnv = BuildEnv(registryUrl: Option<string>, registryUser: Option<string>)
  datatype BuildJobData = BuildJobData(buildId: string, repoName: string, branch: string, installationId: string)

  datatype BuildAction = WriteBuild(buildId: string, patch: BuildPatch) | Run(command: Command) | RemoveDir(path: string)
  datatype BuildOutcome = Built(imageTag: string) | Threw(error: ExecError)
  datatype BuildRun = BuildRun(actions: seq<BuildAction>, outcome: BuildOutcome)

  function CloneDir(buildId: string): string { "/tmp/build-" + buildId }

  function CloneUrl(token: string, repoName: string): string
  {
    "https://x-access-token:" + token + "@github.com/" + repoName + ".git"
  }

  /** `REGISTRY_URL/REGISTRY_USER/<second segment of the repo name>`. */
  function ImageName(env: BuildEnv, repoName: string): string
  {
    Text.Show(env.registryUrl) + "/" + Text.Show(env.registryUser) + "/" + Text.Show(Text.Segment(repoName, '/', 1))
  }

  function ImageTag(env: BuildEnv, repoName: string, sha: string): (tag: string)
    ensures tag != ""
  {
    ImageName(env, repoName) + ":" + sha
  }

  /** The image tag splits back into registry, user and `<repo>:<sha>` when
      none of those parts contains a slash. */
  lemma ImageTagParts(url: string, user: string, owner: string, repo: string, sha: string)
    requires '/' !in url && '/' !in user && '/' !in owner && '/' !in repo && '/' !in sha
    ensures Text.Split(ImageTag(BuildEnv(Some(url), Some(user)), owner + "/" + repo, sha), '/')
            == [url, user, repo + ":" + sha]
  {
    Text.SecondSegmentOfPair(owner, repo);
    var last := repo + ":" + sha;
    var parts := [url, user, last];
    assert parts[1..] == [user, last];
    assert parts[1..][1..] == [last];
    assert Text.Join(parts[1..], "/") == user + "/" + last;
    assert Text.Join(parts, "/") == url + "/" + (user + "/" + last);
    assert ImageTag(BuildEnv(Some(url), Some(user)), owner + "/" + repo, sha) == url + "/" + (user + "/" + last);
    assert '/' !in last;
    Text.SplitJoin(parts, '/');
  }

  /** What a step printed, or nothing when it failed. */
  function Stdout(r: StepReply): string
  {
    if r.StepOk? then r.stdout else ""
  }

  /** The six commands in order. The clone URL needs the token and the tag
      needs the commit hash, both read from earlier replies. */
  function Commands(job: BuildJobData, env: BuildEnv, token: string, sha: string): (cs: seq<Command>)
    ensures |cs| == StepCount
  {
    var dir := CloneDir(job.buildId);
    var tag := ImageTag(env, job.repoName, sha);
    [ FetchInstallationToken(job.installationId),
      GitClone(job.branch, CloneUrl(token, job.repoName), dir),
      RevParse(dir),
      RegistryLogin(Text.Show(env.registryUrl), Text.Show(env.registryUser)),
      DockerBuild(tag, dir),
      DockerPush(tag) ]
  }

  /** Index of the first failing step, `StepCount` when none fails. */
  function FirstFailure(steps: seq<StepReply>): (k: nat)
    requires |steps| == StepCount
    ensures k <= StepCount
    ensures forall i :: 0 <= i < k ==> steps[i].StepOk?
    ensures k < StepCount ==> steps[k].StepFailed?
  {
    if steps[0].StepFailed? then 0
    else if steps[1].StepFailed? then 1
    else if steps[2].StepFailed? then 2
    else if steps[3].StepFailed? then 3
    else if steps[4].StepFailed? then 4
    else if steps[5].StepFailed? then 5
    else 6
  }

  function Runs(cs: seq<Command>): (rs: seq<BuildAction>)
    ensures |rs| == |cs|
    ensures forall i :: 0 <= i < |cs| ==> rs[i] == Run(cs[i])
  {
    seq(|cs|, i requires 0 <= i < |cs| => Run(cs[i]))
  }

  /** The `catch` and `finally` of the worker: write the final status, then
      remove the clone directory. A removal that throws replaces whatever
      the job was about to return or throw. */
  function Finish(job: BuildJobData, done: seq<BuildAction>, now: int, removal: Option<ExecError>,
                  result: Result<string, ExecError>): (r: BuildRun)
    ensures |r.actions| == |done| + 2 && r.actions[..|done|] == done
    ensures r.actions[|done|].WriteBuild? && r.actions[|done| + 1] == RemoveDir(CloneDir(job.buildId))
    ensures result.Ok? ==> r.actions[|done|] == WriteBuild(job.buildId, UpdateBuildStatus(Success, now, result.value, ""))
    ensures result.Err? ==> r.actions[|done|] == WriteBuild(job.buildId, UpdateBuildStatus(Failed, now, "", FailureLogs(result.error)))
    ensures removal.Some? ==> r.outcome == Threw(removal.value)
    ensures removal.None? && result.Ok? ==> r.outcome == Built(result.value)
    ensures removal.None? && result.Err? ==> r.outcome == Threw(result.error)
  {
    var write := match result
      case Ok(tag) => UpdateBuildStatus(Success, now, tag, "")
      case Err(e) => UpdateBuildStatus(Failed, now, "", FailureLogs(e));
    var outcome := if removal.Some? then Threw(removal.value)
                   else match result
                     case Ok(tag) => Built(tag)
                     case Err(e) => Threw(e);
    BuildRun(done + [WriteBuild(job.buildId, write), RemoveDir(CloneDir(job.buildId))], outcome)
  }

  /** How many steps run: up to and including the first failure. */
  function StepsRun(steps: seq<StepReply>): (n: nat)
    requires |steps| == StepCount
    ensures 1 <= n <= StepCount
  {
    var k := FirstFailure(steps);
    if k < StepCount then k + 1 else StepCount
  }

  /** The commands as the replies determine them: the token is what the
      first step returned and the hash is the trimmed output of the third. */
  function PlannedCommands(job: BuildJobData, env: BuildEnv, steps: seq<StepReply>): (cs: seq<Command>)
    requires |steps| == StepCount
    ensures |cs| == StepCount
  {
    Commands(job, env, Stdout(steps[0]), Text.Trim(Stdout(steps[2])))
  }

  /** `process` for one build job. */
  function Process(job: BuildJobData, env: BuildEnv, replies: BuildReplies, now: int): (r: BuildRun)
    requires |replies.steps| == StepCount
    ensures var n := StepsRun(replies.steps);
            && |r.actions| == n + 3
            && r.actions[0] == WriteBuild(job.buildId, UpdateBuildStatus(Building, now, "", ""))
            && r.actions[1..n + 1] == Runs(PlannedCommands(job, env, replies.steps)[..n])
            && r.actions[n + 1].WriteBuild?
            && r.actions[n + 2] == RemoveDir(CloneDir(job.buildId))
    ensures FirstFailure(replies.steps) == StepCount ==>
              var tag := ImageTag(env, job.repoName, Text.Trim(Stdout(replies.steps[2])));
              && r.actions[StepCount + 1] == WriteBuild(job.buildId, BuildPatch(Success, now, Some(tag), None))
              && r.outcome == (if replies.removal.Some? then Threw(replies.removal.value) else Built(tag))
    ensures var k := FirstFailure(replies.steps);
            k < StepCount ==>
              var e := replies.steps[k].error;
              && r.actions[k + 2] == WriteBuild(job.buildId, UpdateBuildStatus(Failed, now, "", FailureLogs(e)))
              && r.outcome == Threw(if replies.removal.Some? then replies.removal.value else e)
  {
    var steps := replies.steps;
    var start := [WriteBuild(job.buildId, UpdateBuildStatus(Building, now, "", ""))];
    var cs := PlannedCommands(job, env, steps);
    var k := FirstFailure(steps);
    var n := StepsRun(steps);
    var done := start + Runs(cs[..n]);
    var result := if k < StepCount then Err(steps[k].error)
                  else Ok(ImageTag(env, job.repoName, Text.Trim(Stdout(steps[2]))));
    var r := Finish(job, done, now, replies.removal, result);
    InnerSlice(r.actions, start, Runs(cs[..n]));
    r
  }

  /** In a sequence that starts with `a + b`, `b` sits right after `a`. */
  lemma InnerSlice<T>(s: seq<T>, a: seq<T>, b: seq<T>)
    requires |a + b| <= |s| && s[..|a + b|] == a + b
    ensures s[|a|..|a| + |b|] == b
  {
    assert s[|a|..|a| + |b|] == (a + b)[|a|..];
  }

  /** A trace shaped write, runs, write, removal holds its removal only at
      the end. */
  lemma RemovalOnlyLast(a: seq<BuildAction>, n: nat, cs: seq<Command>, path: string)
    requires |a| == n + 3 && |cs| == n
    requires a[0].WriteBuild? && a[1..n + 1] == Runs(cs) && a[n + 1].WriteBuild?
    ensures RemoveDir(path) !in a[..|a| - 1]
  {
    forall i | 0 <= i < |a| - 1 ensures a[i] != RemoveDir(path) {
      if 1 <= i <= n {
        assert a[i] == a[1..n + 1][i - 1];
      }
    }
  }

  /** Every exit path removes the clone directory, as the last action, and
      `building` is written before any step runs. */
  lemma CleanupOnEveryPath(job: BuildJobData, env: BuildEnv, replies: BuildReplies, now: int)
    requires |replies.steps| == StepCount
    ensures var r := Process(job, env, replies, now);
            && r.actions[0] == WriteBuild(job.buildId, UpdateBuildStatus(Building, now, "", ""))
            && r.actions[|r.actions| - 1] == RemoveDir("/tmp/build-" + job.buildId)
            && RemoveDir(CloneDir(job.buildId)) !in r.actions[..|r.actions| - 1]
  {
    var r := Process(job, env, replies, now);
    var n := StepsRun(replies.steps);
    RemovalOnlyLast(r.actions, n, PlannedCommands(job, env, replies.steps)[..n], CloneDir(job.buildId));
  }

  /** A failed build never records an image, and its log text is the
      command's stderr when there is one. */
  lemma FailureRecordsNoImage(job: BuildJobData, env: BuildEnv, replies: BuildReplies, now: int)
    requires |replies.steps| == StepCount
    requires FirstFailure(replies.steps) < StepCount
    ensures var r := Process(job, env, replies, now);
            var w := r.actions[|r.actions| - 2];
            && w.WriteBuild? && w.patch.status == Failed && w.patch.imageUri.None?
            && var e := replies.steps[FirstFailure(replies.steps)].error;
               (e.stderr.Some? && e.stderr.value != "" ==> w.patch.logs == Some(e.stderr.value))
  {
  }
}

=== FILE: crypto.dfy ===
/** Encryption of stored provider tokens: the key check at start-up and the
    framing of a ciphertext as hex of `iv (12 bytes) ‖ ciphertext ‖ tag
    (16 bytes)`. AES-256-GCM itself is a pair of functions passed in; only
    the framing around it is modelled, with Node's hex decoding and
    `Buffer.slice` index rules. */
module Crypto {
  import opened Wrappers

  newtype byte = x: int | 0 <= x < 256

  const IvLength := 12
  const AuthTagLength := 16
  /** 32 key bytes, written as hex. */
  const KeyHexLength := 64
  const KeyLength := 32

  datatype CryptoError =
    | InvalidConfiguration   // the start-up key check
    | InvalidKeyLength       // raised by the cipher, not caught by `encrypt`
    | DecryptionFailed       // what `decrypt` turns every failure into

  // ---------------------------------------------------------------------
  // Hex

  function HexDigit(n: int): char
    requires 0 <= n < 16
  {
    "0123456789abcdef"[n]
  }

  /** Value of a hex digit, either case. */
  function HexValue(c: char): (v: Option<int>)
    ensures v.Some? ==> 0 <= v.value < 16
  {
    if '0' <= c <= '9' then Some(c as int - '0' as int)
    else if 'a' <= c <= 'f' then Some(c as int - 'a' as int + 10)
    else if 'A' <= c <= 'F' then Some(c as int - 'A' as int + 10)
    else None
  }

  lemma HexValueOfDigit(n: int)
    requires 0 <= n < 16
    ensures HexValue(HexDigit(n)) == Some(n)
  {
  }

  /** `buffer.toString('hex')`: two lower-case digits per byte. */
  function ToHex(bs: seq<byte>): (s: string)
    ensures |s| == 2 * |bs|
  {
    if |bs| == 0 then ""
    else [HexDigit(bs[0] as int / 16), HexDigit(bs[0] as int % 16)] + ToHex(bs[1..])
  }

  /** `Buffer.from(s, 'hex')`: decodes digit pairs from the start and stops
      at the first pair that is not two hex digits; a trailing odd digit is
      dropped. */
  function FromHex(s: string): (bs: seq<byte>)
    ensures |bs| <= |s| / 2
    ensures |s| >= 2 && (HexValue(s[0]).None? || HexValue(s[1]).None?) ==> bs == []
    ensures |s| >= 2 && HexValue(s[0]).Some? && HexValue(s[1]).Some? ==>
      |bs| > 0 && bs[0] as int == HexValue(s[0]).value * 16 + HexValue(s[1]).value
  {
    if |s| < 2 then []
    else match (HexValue(s[0]), HexValue(s[1]))
      case (Some(hi), Some(lo)) => [(hi * 16 + lo) as byte] + FromHex(s[2..])
      case _ => []
  }

  /** Hex decoding undoes hex encoding. */
  lemma {:induction false} FromHexToHex(bs: seq<byte>)
    ensures FromHex(ToHex(bs)) == bs
  {
    if |bs| > 0 {
      assert ToHex(bs) == [HexDigit(bs[0] as int / 16), HexDigit(bs[0] as int % 16)] + ToHex(bs[1..]);
      FromHexStep(bs[0], ToHex(bs[1..]));
      FromHexToHex(bs[1..]);
      assert bs == [bs[0]] + bs[1..];
    }
  }

  /** The two digits of one byte decode to that byte, and decoding goes on
      with what follows. */
  lemma FromHexStep(b: byte, rest: string)
    ensures FromHex([HexDigit(b as int / 16), HexDigit(b as int % 16)] + rest) == [b] + FromHex(rest)
  {
    var hi := b as int / 16;
    var lo := b as int % 16;
    var s := [HexDigit(hi), HexDigit(lo)] + rest;
    HexValueOfDigit(hi);
    HexValueOfDigit(lo);
    assert s[2..] == rest;
    assert (hi * 16 + lo) as byte == b;
  }

  // ---------------------------------------------------------------------
  // Start-up key check

  /** The constructor: a key that is missing or not exactly 64 characters
      long is refused; otherwise its hex decoding is the key. */
  function NewCryptoService(encryptionKey: Option<string>): (r: Result<seq<byte>, CryptoError>)
    ensures r.Ok? <==> encryptionKey.Some? && |encryptionKey.value| == KeyHexLength
    ensures r.Err? ==> r.error == InvalidConfiguration
    ensures r.Ok? ==> r.value == FromHex(encryptionKey.value)
  {
    match encryptionKey
    case None => Err(InvalidConfiguration)
    case Some(k) =>
      if k == "" || |k| != KeyHexLength then Err(InvalidConfiguration)
      else Ok(FromHex(k))
  }

  /** The check looks at the length only: 64 characters that are not hex
      digits pass it and yield an empty key. */
  lemma KeyCheckIsLengthOnly()
    ensures NewCryptoService(Some(seq(KeyHexLength, _ => 'z'))) == Ok([])
  {
  }

  /** A 64-digit hex key decodes to 32 bytes. */
  lemma HexKeyHas32Bytes(key: seq<byte>)
    requires |key| == KeyLength
    ensures NewCryptoService(Some(ToHex(key))) == Ok(key)
  {
    FromHexToHex(key);
  }

  // ---------------------------------------------------------------------
  // Framing

  /** `Buffer.slice` index rule: negative counts from the end, then clamped
      to the buffer. */
  function SliceIndex(i: int, len: nat): (r: nat)
    ensures r <= len
    ensures 0 <= i <= len ==> r == i
    ensures i < 0 && len + i >= 0 ==> r == len + i
  {
    if i < 0 then (if len + i < 0 then 0 else len + i)
    else if i > len then len
    else i
  }

  /** `data.slice(start, end)`: empty when the end falls before the start. */
  function Slice(data: seq<byte>, start: int, end: int): (r: seq<byte>)
    ensures 0 <= start <= end <= |data| ==> r == data[start..end]
  {
    var a := SliceIndex(start, |data|);
    var b := SliceIndex(end, |data|);
    if a < b then data[a..b] else []
  }

  datatype Frame = Frame(iv: seq<byte>, ciphertext: seq<byte>, tag: seq<byte>)

  /** `decrypt`'s slicing: the first 12 bytes, the middle, the last 16. On
      a buffer shorter than 28 bytes the pieces overlap or come out short;
      below 16 bytes the middle's end index is negative and counts from the
      end, so the middle can even be non-empty. */
  function Unframe(data: seq<byte>): (f: Frame)
    ensures |data| >= IvLength + AuthTagLength ==>
      f == Frame(data[..IvLength], data[IvLength..|data| - AuthTagLength], data[|data| - AuthTagLength..])
    ensures AuthTagLength <= |data| < IvLength + AuthTagLength ==> f.ciphertext == []
  {
    Frame(Slice(data, 0, IvLength),
          Slice(data, IvLength, |data| - AuthTagLength),
          Slice(data, |data| - AuthTagLength, |data|))
  }

  /** Slicing recovers exactly the pieces that were concatenated. */
  lemma UnframeFrame(iv: seq<byte>, ct: seq<byte>, tag: seq<byte>)
    requires |iv| == IvLength && |tag| == AuthTagLength
    ensures Unframe(iv + ct + tag) == Frame(iv, ct, tag)
  {
    var data := iv + ct + tag;
    assert data[..IvLength] == iv;
    assert data[IvLength..|data| - AuthTagLength] == ct;
    assert data[|data| - AuthTagLength..] == tag;
  }

  /** On a short buffer the tag and the iv share bytes: 20 bytes give a
      12-byte iv, no ciphertext, and a tag made of bytes 4 to 19. */
  lemma ShortBufferOverlaps(data: seq<byte>)
    requires |data| == 20
    ensures Unframe(data) == Frame(data[..12], [], data[4..])
  {
  }

  /** 15 bytes: the middle is `slice(12, -1)`, bytes 12 and 13. */
  lemma TinyBufferMiddle(data: seq<byte>)
    requires |data| == 15
    ensures Unframe(data).ciphertext == data[12..14]
  {
  }

  // ---------------------------------------------------------------------
  // Encrypt and decrypt around an abstract cipher

  datatype Sealed = Sealed(ciphertext: seq<byte>, tag: seq<byte>)

  /** `encrypt`: seal the text under the key and the fresh iv, then hex the
      concatenation. A key of the wrong length makes the cipher throw, and
      `encrypt` lets that error through. */
  function Encrypt(key: seq<byte>, iv: seq<byte>, text: string,
                   seal: (seq<byte>, seq<byte>, string) -> Sealed): (r: Result<string, CryptoError>)
    requires |iv| == IvLength
    ensures |key| != KeyLength ==> r == Err(InvalidKeyLength)
    ensures |key| == KeyLength ==>
      var s := seal(key, iv, text);
      && r.Ok?
      && r.value == ToHex(iv + s.ciphertext + s.tag)
      && |r.value| == 2 * (IvLength + |s.ciphertext| + |s.tag|)
      && FromHex(r.value) == iv + s.ciphertext + s.tag
  {
    if |key| != KeyLength then Err(InvalidKeyLength)
    else
      var s := seal(key, iv, text);
      FromHexToHex(iv + s.ciphertext + s.tag);
      Ok(ToHex(iv + s.ciphertext + s.tag))
  }

  /** `decrypt`: un-hex, slice, open. Every failure, from the cipher or the
      tag check, comes out as the one `DecryptionFailed` error. */
  function Decrypt(key: seq<byte>, encryptedText: string,
                   open: (seq<byte>, seq<byte>, seq<byte>, seq<byte>) -> Option<string>): (r: Result<string, CryptoError>)
    ensures r.Err? ==> r.error == DecryptionFailed
    ensures var f := Unframe(FromHex(encryptedText));
            r.Ok? <==> |key| == KeyLength && open(key, f.iv, f.ciphertext, f.tag).Some?
    ensures r.Ok? ==>
      var f := Unframe(FromHex(encryptedText));
      open(key, f.iv, f.ciphertext, f.tag) == Some(r.value)
  {
    var f := Unframe(FromHex(encryptedText));
    if |key| != KeyLength then Err(DecryptionFailed)
    else match open(key, f.iv, f.ciphertext, f.tag)
      case None => Err(DecryptionFailed)
      case Some(t) => Ok(t)
  }

  /** With a cipher that opens what it sealed and yields 16-byte tags,
      decrypting an encryption gives the text back. */
  lemma DecryptEncrypt(key: seq<byte>, iv: seq<byte>, text: string,
                       seal: (seq<byte>, seq<byte>, string) -> Sealed,
                       open: (seq<byte>, seq<byte>, seq<byte>, seq<byte>) -> Option<string>)
    requires |key| == KeyLength && |iv| == IvLength
    requires |seal(key, iv, text).tag| == AuthTagLength
    requires open(key, iv, seal(key, iv, text).ciphertext, seal(key, iv, text).tag) == Some(text)
    ensures Decrypt(key, Encrypt(key, iv, text, seal).value, open) == Ok(text)
  {
    var s := seal(key, iv, text);
    UnframeFrame(iv, s.ciphertext, s.tag);
  }
}

=== FILE: deploy_job.dfy ===
/** The deploy worker: for one deploy job, look up the build and its linked
    deployment, mark the deployment `deploying`, derive the namespace, the
    application name and the public URL, apply Namespace, Deployment,
    Service and Ingress in that order, wait for the rollout, and mark the
    deployment `running` with its URL. Any failure once the deployment is
    known marks it `deploy_failed` and is re-thrown.

    Cluster replies and the rollout observations are passed in; the store
    writes are recorded in the trace (the service does not look at their
    errors). */
module DeployJob {
  import opened Wrappers
  import opened Records
  import Text
  import K = Kubernetes

  datatype DeployJobData = DeployJobData(buildId: string, imageUri: string)

  /** The reply to the build lookup joined with its deployment: an error or
      no row, or the build with its deployment (which may be absent). */
  datatype BuildLookup = LookupFailed | BuildFound(deployment: Option<DeploymentRecord>)

  /** `BASE_DOMAIN` and `DEPLOYMENT_PORT`, when configured. */
  datatype DeployConfig = DeployConfig(baseDomain: Option<string>, deploymentPort: Option<string>)

  const DefaultBaseDomain := "127.0.0.1.nip.io"
  const DefaultDeploymentPort := "8081"

  /** Replies of the cluster to each step of the job. */
  datatype ClusterReplies = ClusterReplies(
    namespace: K.ApplyScript,
    deployment: K.ApplyScript,
    service: K.ApplyScript,
    ingress: K.ApplyScript,
    rollout: seq<K.Tick>,
    pods: Result<seq<K.Pod>, K.ApiError>,
    events: Result<seq<K.Event>, K.ApiError>)

  datatype Action =
    | WriteStatus(deploymentId: string, patch: Patch)
    | ApplyStep(kind: K.Kind)
    | AwaitRollout

  datatype Failure =
    | BuildRecordNotFound(buildId: string)
    | NoLinkedDeployment
    | ClusterError(error: K.ApiError)
    | RolloutTimeout(message: string)
    | RolloutReadError(error: K.ApiError)

  /** `Succeeded` and `Threw` are the two ways the job ends; `StillWaiting`
      is a rollout poll that has not settled within the observed ticks. */
  datatype Outcome = Succeeded | Threw(failure: Failure) | StillWaiting

  datatype DeployRun = DeployRun(actions: seq<Action>, cluster: K.Cluster, outcome: Outcome)

  /** `user-` followed by the first eight characters of the user id. */
  function NamespaceName(userId: string): (r: string)
    ensures |r| >= 5 && r[..5] == "user-"
    ensures |userId| >= 8 ==> r == "user-" + userId[..8]
    ensures |userId| < 8 ==> r == "user-" + userId
  {
    "user-" + Text.Substring(userId, 0, 8)
  }

  /** Two users whose ids agree on the first eight characters share a
      namespace: the derivation depends on nothing else. */
  lemma NamespaceIsStable(u1: string, u2: string)
    requires |u1| >= 8 && |u2| >= 8 && u1[..8] == u2[..8]
    ensures NamespaceName(u1) == NamespaceName(u2)
  {
  }

  /** `project.split('/')[1]`, rendered as a template would render it. */
  function AppName(project: string): (r: string)
    ensures Text.Segment(project, '/', 1).None? ==> r == "undefined"
    ensures Text.Segment(project, '/', 1).Some? ==> r == Text.Segment(project, '/', 1).value && '/' !in r
  {
    Text.Show(Text.Segment(project, '/', 1))
  }

  lemma AppNameOfRepo(owner: string, repo: string)
    requires '/' !in owner && '/' !in repo
    ensures AppName(owner + "/" + repo) == repo
  {
    Text.SecondSegmentOfPair(owner, repo);
  }

  function Host(appName: string, namespace: string, cfg: DeployConfig): string
  {
    appName + "-" + namespace + "." + cfg.baseDomain.GetOr(DefaultBaseDomain)
  }

  /** The host the Ingress is given: the URL's host name, which URL parsing
      lower-cases. */
  function IngressHost(appName: string, namespace: string, cfg: DeployConfig): string
  {
    Text.AsciiLower(Host(appName, namespace, cfg))
  }

  /** The Ingress host is the URL's host with ASCII capitals lowered and
      every other character kept. */
  lemma IngressHostLowercases(appName: string, namespace: string, cfg: DeployConfig)
    ensures var h := Host(appName, namespace, cfg);
            var ih := IngressHost(appName, namespace, cfg);
            && |ih| == |h|
            && forall i :: 0 <= i < |h| ==>
                 && ('A' <= h[i] <= 'Z' ==> ih[i] == (h[i] as int + 32) as char)
                 && (!('A' <= h[i] <= 'Z') ==> ih[i] == h[i])
  {
  }

  /** `http://<app>-<namespace>.<domain>:<port>`. */
  function Url(appName: string, namespace: string, cfg: DeployConfig): string
  {
    "http://" + Host(appName, namespace, cfg) + ":" + cfg.deploymentPort.GetOr(DefaultDeploymentPort)
  }

  /** The URL is the scheme, the host, a colon and the port, in that order;
      in particular it is never empty. */
  lemma UrlParts(appName: string, namespace: string, cfg: DeployConfig)
    ensures var h := Host(appName, namespace, cfg);
            var r := Url(appName, namespace, cfg);
            && |r| > 7 + |h|
            && r[..7] == "http://" && r[7..7 + |h|] == h && r[7 + |h|] == ':'
            && r[8 + |h|..] == cfg.deploymentPort.GetOr(DefaultDeploymentPort)
  {
    var h := Host(appName, namespace, cfg);
    var r := Url(appName, namespace, cfg);
    assert r == "http://" + h + ":" + cfg.deploymentPort.GetOr(DefaultDeploymentPort);
  }

  /** `updateDeploymentStatus`: the url goes into the patch only when one is
      given and it is not empty. */
  function StatusPatch(status: Status, url: Option<string>): (p: Patch)
    ensures p.status == status && p.namespace.None?
    ensures p.url.Some? <==> url.Some? && url.value != ""
    ensures p.url.Some? ==> p.url == url
  {
    Patch(status, None, if url.Some? && url.value != "" then url else None)
  }

  /** The steps of a successful job, in order. */
  function Plan(deploymentId: string, url: string): (p: seq<Action>)
    ensures |p| == 7
    ensures p[0] == WriteStatus(deploymentId, Patch(Deploying, None, None))
    ensures p[6] == WriteStatus(deploymentId, Patch(Running, None, if url != "" then Some(url) else None))
  {
    [ WriteStatus(deploymentId, StatusPatch(Deploying, None)),
      ApplyStep(K.NamespaceKind), ApplyStep(K.DeploymentKind),
      ApplyStep(K.ServiceKind), ApplyStep(K.IngressKind),
      AwaitRollout,
      WriteStatus(deploymentId, StatusPatch(Running, Some(url))) ]
  }

  function FailedAfter(done: seq<Action>, deploymentId: string, cluster: K.Cluster, f: Failure): DeployRun
  {
    DeployRun(done + [WriteStatus(deploymentId, StatusPatch(DeployFailed, None))], cluster, Threw(f))
  }

  /** `process` for one deploy job. The deployment and service are applied
      without a port, as the worker calls them. A project with no second
      `/`-segment leaves the application name undefined; the client refuses
      the Deployment read for want of a name before any request, and that
      error is not a not-found one. */
  function Process(job: DeployJobData, lookup: BuildLookup, cfg: DeployConfig,
                   cluster: K.Cluster, replies: ClusterReplies): (r: DeployRun)
    ensures lookup.LookupFailed? ==>
      r == DeployRun([], cluster, Threw(BuildRecordNotFound(job.buildId)))
    ensures lookup == BuildFound(None) ==> r == DeployRun([], cluster, Threw(NoLinkedDeployment))
    ensures lookup.BuildFound? && lookup.deployment.Some? ==>
      var d := lookup.deployment.value;
      var ns := NamespaceName(d.userId);
      var app := AppName(d.project);
      var named := Text.Segment(d.project, '/', 1).Some?;
      var plan := Plan(d.id, Url(app, ns, cfg));
      var failed := WriteStatus(d.id, StatusPatch(DeployFailed, None));
      var r1 := K.ApplyNamespace(cluster, ns, replies.namespace);
      var r2 := K.ApplyDeployment(r1.cluster, ns, app, job.imageUri, None, replies.deployment);
      var r3 := K.ApplyService(r2.cluster, ns, app, None, replies.service);
      var r4 := K.ApplyIngress(r3.cluster, ns, app, IngressHost(app, ns, cfg), replies.ingress);
      var w := K.WaitForDeployment(replies.rollout, K.DefaultRolloutTimeoutMs, app,
                                   K.LatestPodEvents(replies.pods, replies.events));
      && (r.outcome.Succeeded? <==>
            r1.error.None? && named && r2.error.None? && r3.error.None? && r4.error.None? && w.Ready?)
      && (r1.error.Some? ==>
            r == DeployRun(plan[..2] + [failed], cluster, Threw(ClusterError(r1.error.value))))
      && (r1.error.None? && !named ==>
            r == DeployRun(plan[..3] + [failed], r1.cluster, Threw(ClusterError(K.RequiredParameterMissing))))
      && (r1.error.None? && named && r2.error.Some? ==>
            r == DeployRun(plan[..3] + [failed], r1.cluster, Threw(ClusterError(r2.error.value))))
      && (r1.error.None? && named && r2.error.None? && r3.error.Some? ==>
            r == DeployRun(plan[..4] + [failed], r2.cluster, Threw(ClusterError(r3.error.value))))
      && (r1.error.None? && named && r2.error.None? && r3.error.None? && r4.error.Some? ==>
            r == DeployRun(plan[..5] + [failed], r3.cluster, Threw(ClusterError(r4.error.value))))
      && (r1.error.None? && named && r2.error.None? && r3.error.None? && r4.error.None? ==>
            && r.cluster == r4.cluster
            && (w.TimedOut? ==> r == DeployRun(plan[..6] + [failed], r4.cluster, Threw(RolloutTimeout(w.message))))
            && (w.Errored? ==> r == DeployRun(plan[..6] + [failed], r4.cluster, Threw(RolloutReadError(w.error))))
            && (w.Pending? ==> r == DeployRun(plan[..6], r4.cluster, StillWaiting)))
  {
    match lookup
    case LookupFailed => DeployRun([], cluster, Threw(BuildRecordNotFound(job.buildId)))
    case BuildFound(None) => DeployRun([], cluster, Threw(NoLinkedDeployment))
    case BuildFound(Some(d)) =>
      var app := AppName(d.project);
      var ns := NamespaceName(d.userId);
      var url := Url(app, ns, cfg);
      var plan := Plan(d.id, url);
      var r1 := K.ApplyNamespace(cluster, ns, replies.namespace);
      if r1.error.Some? then FailedAfter(plan[..2], d.id, r1.cluster, ClusterError(r1.error.value))
      else if Text.Segment(d.project, '/', 1).None? then
        FailedAfter(plan[..3], d.id, r1.cluster, ClusterError(K.RequiredParameterMissing))
      else
        var r2 := K.ApplyDeployment(r1.cluster, ns, app, job.imageUri, None, replies.deployment);
        if r2.error.Some? then FailedAfter(plan[..3], d.id, r2.cluster, ClusterError(r2.error.value))
        else
          var r3 := K.ApplyService(r2.cluster, ns, app, None, replies.service);
          if r3.error.Some? then FailedAfter(plan[..4], d.id, r3.cluster, ClusterError(r3.error.value))
          else
            var r4 := K.ApplyIngress(r3.cluster, ns, app, IngressHost(app, ns, cfg), replies.ingress);
            if r4.error.Some? then FailedAfter(plan[..5], d.id, r4.cluster, ClusterError(r4.error.value))
            else
              var events := K.LatestPodEvents(replies.pods, replies.events);
              match K.WaitForDeployment(replies.rollout, K.DefaultRolloutTimeoutMs, app, events)
              case Ready(_) => DeployRun(plan, r4.cluster, Succeeded)
              case TimedOut(_, msg) => FailedAfter(plan[..6], d.id, r4.cluster, RolloutTimeout(msg))
              case Errored(_, e) => FailedAfter(plan[..6], d.id, r4.cluster, RolloutReadError(e))
              case Pending => DeployRun(plan[..6], r4.cluster, StillWaiting)
  }

  /** Whatever the replies, the trace is the plan, a prefix of it followed
      by the failure write, or the plan up to the rollout wait. */
  lemma ProcessTraceShape(job: DeployJobData, d: DeploymentRecord, cfg: DeployConfig,
                          cluster: K.Cluster, replies: ClusterReplies)
    ensures var r := Process(job, BuildFound(Some(d)), cfg, cluster, replies);
            var plan := Plan(d.id, Url(AppName(d.project), NamespaceName(d.userId), cfg));
            var failed := WriteStatus(d.id, StatusPatch(DeployFailed, None));
            && (r.outcome.Succeeded? ==> r.actions == plan)
            && (r.outcome.Threw? ==> exists k :: 2 <= k <= 6 && r.actions == plan[..k] + [failed])
            && (r.outcome.StillWaiting? ==> r.actions == plan[..6])
  {
    var r := Process(job, BuildFound(Some(d)), cfg, cluster, replies);
    var ns := NamespaceName(d.userId);
    var app := AppName(d.project);
    var plan := Plan(d.id, Url(app, ns, cfg));
    var failed := WriteStatus(d.id, StatusPatch(DeployFailed, None));
    var r1 := K.ApplyNamespace(cluster, ns, replies.namespace);
    var r2 := K.ApplyDeployment(r1.cluster, ns, app, job.imageUri, None, replies.deployment);
    var r3 := K.ApplyService(r2.cluster, ns, app, None, replies.service);
    var r4 := K.ApplyIngress(r3.cluster, ns, app, IngressHost(app, ns, cfg), replies.ingress);
    if r1.error.Some? {
      FailedPrefix(r.actions, plan, failed, 2);
    } else if Text.Segment(d.project, '/', 1).None? || r2.error.Some? {
      FailedPrefix(r.actions, plan, failed, 3);
    } else if r3.error.Some? {
      FailedPrefix(r.actions, plan, failed, 4);
    } else if r4.error.Some? {
      FailedPrefix(r.actions, plan, failed, 5);
    } else if r.outcome.Threw? {
      FailedPrefix(r.actions, plan, failed, 6);
    }
  }

  lemma FailedPrefix(a: seq<Action>, plan: seq<Action>, failed: Action, k: int)
    requires 2 <= k <= 6 <= |plan|
    requires a == plan[..k] + [failed]
    ensures exists k :: 2 <= k <= 6 && a == plan[..k] + [failed]
  {
  }

  /** The final status the trace leaves on the deployment. */
  function FinalStatus(actions: seq<Action>): Option<Status>
  {
    if |actions| == 0 then None
    else match actions[|actions| - 1]
      case WriteStatus(_, p) => Some(p.status)
      case _ => None
  }

  /** A job that ends with the deployment known leaves it `running` with
      its URL on success and `deploy_failed` on failure; the `deploying`
      mark always comes first. */
  lemma {:induction false} TerminalStatus(job: DeployJobData, d: DeploymentRecord, cfg: DeployConfig,
                                          cluster: K.Cluster, replies: ClusterReplies)
    ensures var r := Process(job, BuildFound(Some(d)), cfg, cluster, replies);
            var url := Url(AppName(d.project), NamespaceName(d.userId), cfg);
            && |r.actions| > 0
            && (r.outcome.Succeeded? ==>
                  r.actions[|r.actions| - 1] == WriteStatus(d.id, Patch(Running, None, Some(url))))
            && (r.outcome.Threw? ==> FinalStatus(r.actions) == Some(DeployFailed))
            && r.actions[0] == WriteStatus(d.id, Patch(Deploying, None, None))
  {
    var r := Process(job, BuildFound(Some(d)), cfg, cluster, replies);
    var url := Url(AppName(d.project), NamespaceName(d.userId), cfg);
    var failed := WriteStatus(d.id, StatusPatch(DeployFailed, None));
    UrlParts(AppName(d.project), NamespaceName(d.userId), cfg);
    ProcessTraceShape(job, d, cfg, cluster, replies);
    TraceEnds(r.actions, r.outcome, Plan(d.id, url), failed);
  }

  /** Where a trace of one of the three shapes `Process` produces starts
      and ends. */
  lemma TraceEnds(a: seq<Action>, outcome: Outcome, plan: seq<Action>, failed: Action)
    requires |plan| == 7
    requires outcome.Succeeded? ==> a == plan
    requires outcome.Threw? ==> exists k :: 2 <= k <= 6 && a == plan[..k] + [failed]
    requires outcome.StillWaiting? ==> a == plan[..6]
    ensures |a| > 0 && a[0] == plan[0]
    ensures outcome.Succeeded? ==> a[|a| - 1] == plan[6]
    ensures outcome.Threw? ==> a[|a| - 1] == failed
  {
    if outcome.Threw? {
      var k :| 2 <= k <= 6 && a == plan[..k] + [failed];
      assert a[0] == plan[0];
    }
  }

  /** On success every resource of the application is in the cluster as
      its builder makes it: the Deployment's container carries the job's
      image and no port, and the Ingress routes the lower-cased host. */
  lemma SuccessLeavesResources(job: DeployJobData, d: DeploymentRecord, cfg: DeployConfig,
                               cluster: K.Cluster, replies: ClusterReplies)
    ensures var r := Process(job, BuildFound(Some(d)), cfg, cluster, replies);
            var ns := NamespaceName(d.userId);
            var app := AppName(d.project);
            r.outcome.Succeeded? ==>
            && K.NamespaceKey(ns) in r.cluster
            && r.cluster[K.NamespaceKey(ns)] == K.NamespaceFor(ns)
            && K.DeploymentKey(ns, app) in r.cluster
            && r.cluster[K.DeploymentKey(ns, app)] == K.DeploymentFor(app, job.imageUri, None)
            && K.ServiceKey(ns, app) in r.cluster
            && r.cluster[K.ServiceKey(ns, app)] == K.ServiceFor(app, None)
            && K.IngressKey(ns, app) in r.cluster
            && r.cluster[K.IngressKey(ns, app)] == K.IngressFor(app, IngressHost(app, ns, cfg))
  {
    var r := Process(job, BuildFound(Some(d)), cfg, cluster, replies);
    if r.outcome.Succeeded? {
      ApplyStagesLeaveResources(cluster, NamespaceName(d.userId), AppName(d.project), job.imageUri,
                                IngressHost(AppName(d.project), NamespaceName(d.userId), cfg), replies);
    }
  }

  /** Four applies that all succeed leave the four resources as their
      builders make them. */
  lemma ApplyStagesLeaveResources(cluster: K.Cluster, ns: string, app: string, image: string, host: string,
                                  replies: ClusterReplies)
    ensures var r1 := K.ApplyNamespace(cluster, ns, replies.namespace);
            var r2 := K.ApplyDeployment(r1.cluster, ns, app, image, None, replies.deployment);
            var r3 := K.ApplyService(r2.cluster, ns, app, None, replies.service);
            var r4 := K.ApplyIngress(r3.cluster, ns, app, host, replies.ingress);
            r1.error.None? && r2.error.None? && r3.error.None? && r4.error.None? ==>
            && K.NamespaceKey(ns) in r4.cluster
            && r4.cluster[K.NamespaceKey(ns)] == K.NamespaceFor(ns)
            && K.DeploymentKey(ns, app) in r4.cluster
            && r4.cluster[K.DeploymentKey(ns, app)] == K.DeploymentFor(app, image, None)
            && K.ServiceKey(ns, app) in r4.cluster
            && r4.cluster[K.ServiceKey(ns, app)] == K.ServiceFor(app, None)
            && K.IngressKey(ns, app) in r4.cluster
            && r4.cluster[K.IngressKey(ns, app)] == K.IngressFor(app, host)
  {
    var r1 := K.ApplyNamespace(cluster, ns, replies.namespace);
    var r2 := K.ApplyDeployment(r1.cluster, ns, app, image, None, replies.deployment);
    var r3 := K.ApplyService(r2.cluster, ns, app, None, replies.service);
    var r4 := K.ApplyIngress(r3.cluster, ns, app, host, replies.ingress);
    if r1.error.None? && r2.error.None? && r3.error.None? && r4.error.None? {
      ResourcesAfterUpdates(r1.cluster, r2.cluster, r3.cluster, r4.cluster, ns, app, image, host);
    }
  }

  lemma ResourcesAfterUpdates(c1: K.Cluster, c2: K.Cluster, c3: K.Cluster, c4: K.Cluster,
                              ns: string, app: string, image: string, host: string)
    requires K.NamespaceKey(ns) in c1 && c1[K.NamespaceKey(ns)] == K.NamespaceFor(ns)
    requires c2 == c1[K.DeploymentKey(ns, app) := K.DeploymentFor(app, image, None)]
    requires c3 == c2[K.ServiceKey(ns, app) := K.ServiceFor(app, None)]
    requires c4 == c3[K.IngressKey(ns, app) := K.IngressFor(app, host)]
    ensures K.NamespaceKey(ns) in c4 && c4[K.NamespaceKey(ns)] == K.NamespaceFor(ns)
    ensures K.DeploymentKey(ns, app) in c4 && c4[K.DeploymentKey(ns, app)] == K.DeploymentFor(app, image, None)
    ensures K.ServiceKey(ns, app) in c4 && c4[K.ServiceKey(ns, app)] == K.ServiceFor(app, None)
    ensures K.IngressKey(ns, app) in c4 && c4[K.IngressKey(ns, app)] == K.IngressFor(app, host)
  {
  }
}

=== FILE: deployments_service.dfy ===
/** Deployment requests: the per-user quota gate in front of the insert, the
    two-step insert-then-activate, and the page arithmetic of the listing. */
module DeploymentsService {
  import opened Wrappers
  import opened Records

  /** At most this many deployments per user in `active` or `provisioning`. */
  const MaxLiveDeployments := 2

  predicate CountsTowardQuota(r: DeploymentRecord, userId: string)
  {
    r.userId == userId && (r.status == Active || r.status == Provisioning)
  }

  /** The `count: 'exact'` query: this user's rows in `active` or
      `provisioning`. */
  function QuotaCount(t: Table, userId: string): (n: nat)
    ensures n <= |t|
    ensures n == 0 <==> forall i :: 0 <= i < |t| ==> !CountsTowardQuota(t[i], userId)
  {
    if |t| == 0 then 0
    else
      var rest := QuotaCount(t[1..], userId);
      assert forall i :: 1 <= i < |t| ==> t[i] == t[1..][i - 1];
      (if CountsTowardQuota(t[0], userId) then 1 else 0) + rest
  }

  lemma {:induction false} QuotaCountAppend(t: Table, r: DeploymentRecord, userId: string)
    ensures QuotaCount(t + [r], userId) == QuotaCount(t, userId) + (if CountsTowardQuota(r, userId) then 1 else 0)
    decreases |t|
  {
    if |t| > 0 {
      assert (t + [r])[1..] == t[1..] + [r];
      QuotaCountAppend(t[1..], r, userId);
    }
  }

  datatype CreateRequest = CreateRequest(branch: string, project: string, projectName: string, dockerfilePath: string)

  /** The reply to the count query: an error, a null count, or the count the
      store computes. */
  datatype CountReply = CountError | CountNull | Counted

  /** The reply to the activating update: success, an error the store
      returns (which does not throw), or an exception. */
  datatype ActivationReply = Activated | ActivationError | ActivationThrows

  /** The injected replies of one `create`: the count, the id the insert
      returns (None when the insert fails), and the activating update's
      reply. */
  datatype CreateReplies = CreateReplies(count: CountReply, insertedId: Option<string>, activation: ActivationReply)

  datatype CreateOutcome =
    | Created(record: DeploymentRecord)
    | CountFailed
    | QuotaExceeded
    | InsertFailed
    | ActivationReturnedError
    | ActivationFailed

  datatype CreateResult = CreateResult(table: Table, outcome: CreateOutcome)

  /** The placeholder values the activation writes. */
  const PlaceholderNamespace := "random"
  const PlaceholderUrl := "random"

  /** `create`: count, refuse at two or more, insert as `provisioning`,
      then update to `active` with the placeholder namespace and url. An
      update error the store returns is handed back as the result, leaving
      the row `provisioning`; an update that throws marks the row `failed`. */
  function Create(t: Table, userId: string, req: CreateRequest, replies: CreateReplies, now: int): (r: CreateResult)
    ensures replies.count != Counted ==> r == CreateResult(t, CountFailed)
    ensures replies.count == Counted && QuotaCount(t, userId) >= MaxLiveDeployments ==>
      r == CreateResult(t, QuotaExceeded)
    ensures replies.count == Counted && QuotaCount(t, userId) < MaxLiveDeployments && replies.insertedId.None? ==>
      r == CreateResult(t, InsertFailed)
    ensures r.outcome.Created? ==>
      && QuotaCount(t, userId) < MaxLiveDeployments
      && r.outcome.record.status == Active
      && r.outcome.record.userId == userId
      && r.outcome.record.namespace == Some(PlaceholderNamespace)
      && r.outcome.record.url == Some(PlaceholderUrl)
    ensures replies.count == Counted && QuotaCount(t, userId) < MaxLiveDeployments && replies.insertedId.Some? ==>
      && |r.table| == |t| + 1 && r.table[..|t|] == t
      && r.table[|t|].id == replies.insertedId.value && r.table[|t|].userId == userId
      && r.table[|t|].project == req.project && r.table[|t|].branch == req.branch
      && r.table[|t|].projectName == req.projectName && r.table[|t|].dockerfilePath == req.dockerfilePath
      && r.table[|t|].createdAt == now
      && (r.outcome.Created? <==> replies.activation == Activated)
      && (r.outcome.ActivationReturnedError? <==> replies.activation == ActivationError)
      && (r.outcome.ActivationFailed? <==> replies.activation == ActivationThrows)
    ensures r.outcome.Created? ==> r.table == t + [r.outcome.record] && r.outcome.record.id == replies.insertedId.value
    ensures r.outcome.ActivationReturnedError? ==>
      r.table[|t|].status == Provisioning && r.table[|t|].namespace.None? && r.table[|t|].url.None?
    ensures r.outcome.ActivationFailed? ==> r.table[|t|].status == Failed
  {
    if replies.count != Counted then CreateResult(t, CountFailed)
    else if QuotaCount(t, userId) >= MaxLiveDeployments then CreateResult(t, QuotaExceeded)
    else match replies.insertedId
      case None => CreateResult(t, InsertFailed)
      case Some(id) =>
        var row := DeploymentRecord(id, userId, req.project, req.projectName, req.branch,
                                    req.dockerfilePath, None, None, Provisioning, now);
        match replies.activation
        case ActivationThrows =>
          CreateResult(t + [ApplyPatch(row, Patch(Failed, None, None))], ActivationFailed)
        case ActivationError =>
          CreateResult(t + [row], ActivationReturnedError)
        case Activated =>
          var active := ApplyPatch(row, Patch(Active, Some(PlaceholderNamespace), Some(PlaceholderUrl)));
          CreateResult(t + [active], Created(active))
  }

  /** Sequential requests never take a user past the quota: from at most two
      counted deployments, a create leaves at most two. */
  lemma QuotaPreserved(t: Table, userId: string, req: CreateRequest, replies: CreateReplies, now: int)
    requires QuotaCount(t, userId) <= MaxLiveDeployments
    ensures QuotaCount(Create(t, userId, req, replies, now).table, userId) <= MaxLiveDeployments
  {
    var r := Create(t, userId, req, replies, now);
    if |r.table| == |t| + 1 {
      assert r.table == r.table[..|t|] + [r.table[|t|]];
      QuotaCountAppend(t, r.table[|t|], userId);
    }
  }

  /** A third request from a user with two live deployments is refused and
      leaves the table as it was. */
  lemma ThirdRequestRefused(t: Table, userId: string, req: CreateRequest, replies: CreateReplies, now: int)
    requires replies.count == Counted && QuotaCount(t, userId) == 2
    ensures Create(t, userId, req, replies, now) == CreateResult(t, QuotaExceeded)
  {
  }

  // ---------------------------------------------------------------------
  // Pagination

  /** A query parameter as `Number(...)` sees it: absent (the default
      applies), not a number, or an integer. */
  datatype NumArg = Absent | NotANumber | Num(n: int)

  /** `Math.max(1, Number(page) || 1)`, with `page` defaulting to 1. */
  function NormalisePage(a: NumArg): (p: int)
    ensures p >= 1
    ensures a.Num? && a.n >= 1 ==> p == a.n
    ensures !(a.Num? && a.n >= 1) ==> p == 1
  {
    var v := match a
      case Absent => 1
      case NotANumber => 1
      case Num(n) => if n == 0 then 1 else n;
    if v > 1 then v else 1
  }

  /** `Math.min(Math.max(Number(perPage) || 10, 1), 100)`, with `perPage`
      defaulting to 10: zero and non-numbers become 10, negatives 1, and
      anything above 100 becomes 100. */
  function NormalisePerPage(a: NumArg): (p: int)
    ensures 1 <= p <= 100
    ensures a.Num? && 1 <= a.n <= 100 ==> p == a.n
    ensures a.Num? && a.n > 100 ==> p == 100
    ensures a.Num? && a.n < 0 ==> p == 1
    ensures a.Absent? || a.NotANumber? || a == Num(0) ==> p == 10
  {
    var v := match a
      case Absent => 10
      case NotANumber => 10
      case Num(n) => if n == 0 then 10 else n;
    var atLeastOne := if v > 1 then v else 1;
    if atLeastOne < 100 then atLeastOne else 100
  }

  /** The inclusive row range of a page. */
  datatype Range = Range(from: int, to: int)

  function PageRange(page: int, perPage: int): (r: Range)
    requires page >= 1 && perPage >= 1
    ensures r.from >= 0
    ensures r.to - r.from + 1 == perPage
  {
    var from := (page - 1) * perPage;
    Range(from, from + perPage - 1)
  }

  /** Consecutive pages tile the rows: each starts right after the previous
      one ends. */
  lemma PagesAreContiguous(page: int, perPage: int)
    requires page >= 1 && perPage >= 1
    ensures PageRange(page, perPage).to + 1 == PageRange(page + 1, perPage).from
  {
  }

  /** Every row index lies on exactly one page. */
  lemma EveryRowOnExactlyOnePage(row: nat, perPage: int, page: int)
    requires perPage >= 1 && page >= 1
    ensures var home := row / perPage + 1;
            var r := PageRange(page, perPage);
            r.from <= row <= r.to <==> page == home
  {
    var home := row / perPage + 1;
    var q := row / perPage;
    assert q * perPage <= row < (q + 1) * perPage;
    if page < home {
      assert (page - 1) * perPage + perPage == page * perPage;
      assert page * perPage <= q * perPage by {
        assert page <= q;
      }
    } else if page > home {
      assert (page - 1) * perPage >= (q + 1) * perPage by {
        assert page - 1 >= q + 1;
      }
    }
  }

  /** What `findForUser` asks the store for, from the raw parameters. */
  function FindForUserRange(page: NumArg, perPage: NumArg): (r: Range)
    ensures r.from >= 0 && 1 <= r.to - r.from + 1 <= 100
    ensures page.Num? && page.n >= 1 && perPage.Absent? ==> r == Range((page.n - 1) * 10, page.n * 10 - 1)
    ensures !(page.Num? && page.n > 1) ==> r.from == 0
  {
    PageRange(NormalisePage(page), NormalisePerPage(perPage))
  }
}

=== FILE: kubernetes.dfy ===
/** The cluster resource manager: idempotent apply over an abstract cluster,
    classification of not-found errors, the Namespace / Deployment / Service /
    Ingress manifests the deploy stage applies, the rollout poll, the pod
    event digest used as timeout diagnostics, and best-effort namespace
    deletion.

    The cluster is a finite map from (kind, namespace, name) to the manifest
    last written there. Every call to the cluster API has an outcome that is
    passed in: a `Done` reply or a `Failed` one carrying the client's error
    object. */
module Kubernetes {
  import opened Wrappers
  import Text

  // ---------------------------------------------------------------------
  // Manifests and the cluster

  datatype Kind = NamespaceKind | DeploymentKind | ServiceKind | IngressKind

  datatype Container = Container(name: string, image: string, containerPort: Option<int>)
  datatype ServicePort = ServicePort(port: int, targetPort: Option<int>)
  datatype IngressTls = IngressTls(hosts: seq<string>, secretName: string)
  datatype IngressPath = IngressPath(path: string, pathType: string, backendService: string, backendPort: int)
  datatype IngressRule = IngressRule(host: string, paths: seq<IngressPath>)

  datatype Manifest =
    | NamespaceManifest(name: string)
    | DeploymentManifest(name: string, replicas: int, selector: map<string, string>,
                         templateLabels: map<string, string>, containers: seq<Container>)
    | ServiceManifest(name: string, selector: map<string, string>, ports: seq<ServicePort>,
                      serviceType: string)
    | IngressManifest(name: string, annotations: map<string, string>, tls: seq<IngressTls>,
                      rules: seq<IngressRule>)

  /** Where a resource lives. Namespaces are cluster-scoped: their own
      namespace field is empty. */
  datatype Key = Key(kind: Kind, namespace: string, name: string)

  type Cluster = map<Key, Manifest>

  function NamespaceKey(name: string): Key { Key(NamespaceKind, "", name) }

  // ---------------------------------------------------------------------
  // Errors from the client and their classification

  /** What `JSON.parse` made of a string body: a syntax error, the literal
      `null` (whose `.code` throws), or some other value with an optional
      numeric `code` property. */
  datatype ParsedBody = Malformed | JsonNull | JsonValue(code: Option<int>)

  /** The `body` of a client error: absent, an object with an optional
      numeric `code`, or raw text. */
  datatype ErrorBody = NoBody | ObjectBody(code: Option<int>) | TextBody(parsed: ParsedBody)

  datatype ApiError = ApiError(body: ErrorBody, statusCode: Option<int>)

  /** The error the API returns for a resource that does not exist. */
  const NotFound: ApiError := ApiError(ObjectBody(Some(404)), Some(404))

  /** The error the client raises itself, before any request, when a
      required parameter such as a resource name is undefined: no body and
      no HTTP status. */
  const RequiredParameterMissing: ApiError := ApiError(NoBody, None)

  /** `isNotFoundError`: a 404 code in an object body, a 404 code in a text
      body that parses, or else a 404 HTTP status. A text body that does not
      parse (or parses to `null`) answers false at once, without looking at
      the HTTP status. */
  function IsNotFoundError(e: ApiError): (r: bool)
    ensures r <==>
      || e.body == ObjectBody(Some(404))
      || e.body == TextBody(JsonValue(Some(404)))
      || (e.statusCode == Some(404) && e.body !in {TextBody(Malformed), TextBody(JsonNull)})
  {
    if e.body.ObjectBody? && e.body.code == Some(404) then true
    else if e.body.TextBody? then
      match e.body.parsed
      case Malformed => false
      case JsonNull => false
      case JsonValue(code) => if code == Some(404) then true else e.statusCode == Some(404)
    else e.statusCode == Some(404)
  }

  /** The early `return false`: a 404 status behind an unparseable text body
      is not recognised as not-found. */
  lemma UnparseableBodyHidesStatus()
    ensures !IsNotFoundError(ApiError(TextBody(Malformed), Some(404)))
    ensures IsNotFoundError(ApiError(NoBody, Some(404)))
  {
  }

  // ---------------------------------------------------------------------
  // Idempotent apply

  datatype ApiCall = Read | Replace | Create
  datatype ApiOutcome = Done | Failed(error: ApiError)

  /** The replies the cluster gives to the read, replace and create calls of
      one apply (a call that is not made ignores its reply). */
  datatype ApplyScript = ApplyScript(read: ApiOutcome, replace: ApiOutcome, create: ApiOutcome)

  /** The calls made, the cluster afterwards, and the error that escapes. */
  datatype ApplyResult = ApplyResult(cluster: Cluster, calls: seq<ApiCall>, error: Option<ApiError>)

  /** `applyResource`: read; if that succeeds, replace; if either throws a
      not-found error, create; any other error escapes. The replace sits
      inside the same `try`, so a replace that fails with not-found falls
      through to create as well. A successful write stores the manifest;
      a failed one changes nothing. */
  function Apply(c: Cluster, key: Key, m: Manifest, s: ApplyScript): (r: ApplyResult)
    ensures |r.calls| >= 1 && r.calls[0] == Read && Read !in r.calls[1..]
    ensures Replace in r.calls <==> s.read.Done?
    ensures Create in r.calls <==>
      || (s.read.Failed? && IsNotFoundError(s.read.error))
      || (s.read.Done? && s.replace.Failed? && IsNotFoundError(s.replace.error))
    ensures s.read.Done? && s.replace.Done? ==>
      r.calls == [Read, Replace] && r.error == None
    ensures s.read.Failed? && !IsNotFoundError(s.read.error) ==>
      r.calls == [Read] && r.error == Some(s.read.error)
    ensures s.read.Failed? && IsNotFoundError(s.read.error) && s.create.Done? ==>
      r.calls == [Read, Create] && r.error == None
    ensures s.read.Done? && s.replace.Failed? && IsNotFoundError(s.replace.error) && s.create.Done? ==>
      r.calls == [Read, Replace, Create] && r.error == None
    ensures s.read.Done? && s.replace.Failed? && !IsNotFoundError(s.replace.error) ==>
      r.calls == [Read, Replace] && r.error == Some(s.replace.error)
    ensures s.read.Failed? && IsNotFoundError(s.read.error) && s.create.Failed? ==>
      r.calls == [Read, Create]
    ensures s.read.Done? && s.replace.Failed? && IsNotFoundError(s.replace.error) && s.create.Failed? ==>
      r.calls == [Read, Replace, Create]
    ensures Create in r.calls && s.create.Failed? ==> r.error == Some(s.create.error)
    ensures r.error.None? ==> r.cluster == c[key := m]
    ensures r.error.Some? ==> r.cluster == c
  {
    var first :=
      if s.read.Failed? then s.read
      else s.replace;
    var tried := if s.read.Failed? then [Read] else [Read, Replace];
    match first
    case Done => ApplyResult(c[key := m], tried, None)
    case Failed(e) =>
      if IsNotFoundError(e) then
        match s.create
        case Done => ApplyResult(c[key := m], tried + [Create], None)
        case Failed(e2) => ApplyResult(c, tried + [Create], Some(e2))
      else ApplyResult(c, tried, Some(e))
  }

  /** The read reply a cluster that behaves like its store gives. */
  function ReadFrom(c: Cluster, key: Key): ApiOutcome
  {
    if key in c then Done else Failed(NotFound)
  }

  /** Applying the same manifest twice against a cluster that answers reads
      from its store: the first apply creates or replaces, the second one
      takes the replace branch, and the cluster holds exactly the manifest
      under its key while every other key keeps its resource. */
  lemma {:induction false} ApplyTwice(c: Cluster, key: Key, m: Manifest)
    ensures var r1 := Apply(c, key, m, ApplyScript(ReadFrom(c, key), Done, Done));
            var r2 := Apply(r1.cluster, key, m, ApplyScript(ReadFrom(r1.cluster, key), Done, Done));
            && r1.error.None? && r2.error.None?
            && r1.calls == (if key in c then [Read, Replace] else [Read, Create])
            && r2.calls == [Read, Replace]
            && r2.cluster.Keys == c.Keys + {key}
            && r2.cluster[key] == m
            && (forall k :: k in c && k != key ==> k in r2.cluster && r2.cluster[k] == c[k])
  {
    var r1 := Apply(c, key, m, ApplyScript(ReadFrom(c, key), Done, Done));
    assert IsNotFoundError(NotFound);
    assert r1.cluster == c[key := m];
    assert key in r1.cluster;
  }

  // ---------------------------------------------------------------------
  // Manifests the deploy stage applies

  function NamespaceFor(name: string): (m: Manifest)
    ensures m.NamespaceManifest? && m.name == name
  {
    NamespaceManifest(name)
  }

  /** One replica of one container named after the application; the port is
      optional because callers may leave it out. */
  function DeploymentFor(appName: string, imageUri: string, port: Option<int>): (m: Manifest)
    ensures m.DeploymentManifest? && m.name == appName && m.replicas == 1
    ensures m.selector == m.templateLabels == map["app" := appName]
    ensures m.containers == [Container(appName, imageUri, port)]
  {
    var labels := map["app" := appName];
    DeploymentManifest(appName, 1, labels, labels, [Container(appName, imageUri, port)])
  }

  function ServiceFor(appName: string, port: Option<int>): (m: Manifest)
    ensures m.ServiceManifest? && m.name == appName && m.serviceType == "ClusterIP"
    ensures m.selector == map["app" := appName]
    ensures m.ports == [ServicePort(80, port)]
  {
    ServiceManifest(appName, map["app" := appName], [ServicePort(80, port)], "ClusterIP")
  }

  const IngressAnnotations: map<string, string> :=
    map["kubernetes.io/ingress.class" := "traefik",
        "cert-manager.io/cluster-issuer" := "letsencrypt-prod"]

  function IngressFor(appName: string, host: string): (m: Manifest)
    ensures m.IngressManifest? && m.name == appName
    ensures m.tls == [IngressTls([host], appName + "-tls")]
    ensures |m.rules| == 1 && m.rules[0].host == host
    ensures m.rules[0].paths == [IngressPath("/", "Prefix", appName, 80)]
  {
    IngressManifest(appName, IngressAnnotations, [IngressTls([host], appName + "-tls")],
                    [IngressRule(host, [IngressPath("/", "Prefix", appName, 80)])])
  }

  /** The Service selects exactly the Deployment's pods and forwards to its
      container port. */
  predicate ServiceTargets(svc: Manifest, dep: Manifest)
  {
    && svc.ServiceManifest? && dep.DeploymentManifest?
    && svc.selector == dep.templateLabels
    && |svc.ports| >= 1 && |dep.containers| >= 1
    && svc.ports[0].targetPort == dep.containers[0].containerPort
  }

  /** Every host the Ingress serves is covered by its TLS entry, and every
      path routes to the Service's port. */
  predicate IngressTargets(ing: Manifest, svc: Manifest)
  {
    && ing.IngressManifest? && svc.ServiceManifest? && |svc.ports| >= 1
    && (forall i :: 0 <= i < |ing.rules| ==>
          (exists t :: t in ing.tls && ing.rules[i].host in t.hosts))
    && (forall i, j :: 0 <= i < |ing.rules| && 0 <= j < |ing.rules[i].paths| ==>
          ing.rules[i].paths[j].backendService == svc.name
          && ing.rules[i].paths[j].backendPort == svc.ports[0].port)
  }

  /** The three manifests built for one application wire together: the
      Deployment selects its own pods, the Service reaches them on the
      container port, and the Ingress reaches the Service over TLS. */
  lemma ManifestsWireTogether(appName: string, imageUri: string, port: Option<int>, host: string)
    ensures var dep := DeploymentFor(appName, imageUri, port);
            var svc := ServiceFor(appName, port);
            var ing := IngressFor(appName, host);
            && dep.selector == dep.templateLabels
            && ServiceTargets(svc, dep)
            && IngressTargets(ing, svc)
  {
    var ing := IngressFor(appName, host);
    assert ing.tls[0] in ing.tls;
  }

  function DeploymentKey(namespace: string, appName: string): Key { Key(DeploymentKind, namespace, appName) }
  function ServiceKey(namespace: string, appName: string): Key { Key(ServiceKind, namespace, appName) }
  function IngressKey(namespace: string, appName: string): Key { Key(IngressKind, namespace, appName) }

  /** `applyNamespace`. */
  function ApplyNamespace(c: Cluster, name: string, s: ApplyScript): (r: ApplyResult)
    ensures r.error.None? ==> r.cluster == c[NamespaceKey(name) := NamespaceManifest(name)]
    ensures r.error.Some? ==> r.cluster == c
  {
    Apply(c, NamespaceKey(name), NamespaceFor(name), s)
  }

  /** `applyDeployment`. */
  function ApplyDeployment(c: Cluster, namespace: string, appName: string, imageUri: string,
                           port: Option<int>, s: ApplyScript): (r: ApplyResult)
    ensures r.error.None? ==>
      var k := DeploymentKey(namespace, appName);
      && r.cluster == c[k := DeploymentFor(appName, imageUri, port)]
      && r.cluster[k].replicas == 1
      && r.cluster[k].containers == [Container(appName, imageUri, port)]
    ensures r.error.Some? ==> r.cluster == c
  {
    Apply(c, DeploymentKey(namespace, appName), DeploymentFor(appName, imageUri, port), s)
  }

  /** `applyService`. */
  function ApplyService(c: Cluster, namespace: string, appName: string, port: Option<int>,
                        s: ApplyScript): (r: ApplyResult)
    ensures r.error.None? ==>
      var k := ServiceKey(namespace, appName);
      && r.cluster == c[k := ServiceFor(appName, port)]
      && r.cluster[k].ports == [ServicePort(80, port)]
    ensures r.error.Some? ==> r.cluster == c
  {
    Apply(c, ServiceKey(namespace, appName), ServiceFor(appName, port), s)
  }

  /** `applyIngress`, given the host name already extracted from the URL. */
  function ApplyIngress(c: Cluster, namespace: string, appName: string, host: string,
                        s: ApplyScript): (r: ApplyResult)
    ensures r.error.None? ==>
      var k := IngressKey(namespace, appName);
      && r.cluster == c[k := IngressFor(appName, host)]
      && r.cluster[k].tls == [IngressTls([host], appName + "-tls")]
    ensures r.error.Some? ==> r.cluster == c
  {
    Apply(c, IngressKey(namespace, appName), IngressFor(appName, host), s)
  }

  // ---------------------------------------------------------------------
  // Rollout poll

  datatype DeploymentSpec = DeploymentSpec(replicas: Option<int>)
  datatype DeploymentStatus = DeploymentStatus(availableReplicas: Option<int>,
                                               updatedReplicas: Option<int>,
                                               replicas: Option<int>)
  /** What a read of the Deployment returns; `spec` and `status` may be missing. */
  datatype Observed = Observed(spec: Option<DeploymentSpec>, status: Option<DeploymentStatus>)

  /** Ready when spec and status are present and the available, updated and
      total replica counts all equal the desired count. The comparison is
      strict equality on possibly-missing values, so a missing desired count
      matches missing counts. */
  predicate RolloutComplete(o: Observed)
  {
    && o.spec.Some? && o.status.Some?
    && o.status.value.availableReplicas == o.spec.value.replicas
    && o.status.value.updatedReplicas == o.spec.value.replicas
    && o.status.value.replicas == o.spec.value.replicas
  }

  /** One firing of the poll timer: the milliseconds elapsed since the poll
      started, and the reply to the read it makes. */
  datatype Tick = Tick(elapsed: int, read: Result<Observed, ApiError>)

  datatype TickAction = KeepWaiting | Resolve | RejectTimeout | RejectError(error: ApiError)
  datatype TickResult = TickResult(action: TickAction, clearsInterval: bool)

  const DefaultRolloutTimeoutMs := 300000

  /** The timer callback of `waitForDeployment`. The timeout test comes
      first; then the read; then the two-stage readiness test. */
  function OnTick(t: Tick, timeout: int): (r: TickResult)
    ensures r.clearsInterval <==> !r.action.KeepWaiting?
    ensures r.action.RejectTimeout? <==> t.elapsed > timeout
    ensures r.action.Resolve? <==> t.elapsed <= timeout && t.read.Ok? && RolloutComplete(t.read.value)
    ensures r.action.RejectError? <==> t.elapsed <= timeout && t.read.Err?
    ensures r.action.RejectError? ==> t.read == Err(r.action.error)
  {
    if t.elapsed > timeout then TickResult(RejectTimeout, true)
    else
      match t.read
      case Err(e) => TickResult(RejectError(e), true)
      case Ok(o) =>
        var spec := o.spec;
        var status := o.status;
        if status.Some? && spec.Some? && status.value.availableReplicas == spec.value.replicas then
          if status.value.updatedReplicas == spec.value.replicas
             && status.value.replicas == spec.value.replicas then
            TickResult(Resolve, true)
          else TickResult(KeepWaiting, false)
        else TickResult(KeepWaiting, false)
  }

  /** How the poll settled, and at which tick; `Pending` when the ticks ran
      out with the timer still live. */
  datatype WaitOutcome = Ready(at: nat) | TimedOut(at: nat, message: string)
                       | Errored(at: nat, error: ApiError) | Pending

  function TimeoutMessage(appName: string, podEvents: string): string
  {
    "Timeout waiting for deployment rollout for " + appName + ". Last pod events:\n" + podEvents
  }

  /** `waitForDeployment` over the ticks that fire: the first tick whose
      callback does not keep waiting settles the promise and clears the
      timer; no later tick is looked at. */
  function WaitForDeployment(ticks: seq<Tick>, timeout: int, appName: string, podEvents: string): (r: WaitOutcome)
    ensures r.Ready? ==> r.at < |ticks| && OnTick(ticks[r.at], timeout).action.Resolve?
    ensures r.TimedOut? ==> r.at < |ticks| && ticks[r.at].elapsed > timeout
                            && r.message == TimeoutMessage(appName, podEvents)
    ensures r.Errored? ==> r.at < |ticks| && ticks[r.at].elapsed <= timeout
                           && ticks[r.at].read == Err(r.error)
    ensures var stop := if r.Pending? then |ticks| else r.at;
            forall j :: 0 <= j < stop ==> OnTick(ticks[j], timeout).action.KeepWaiting?
    decreases |ticks|
  {
    if |ticks| == 0 then Pending
    else
      match OnTick(ticks[0], timeout).action
      case Resolve => Ready(0)
      case RejectTimeout => TimedOut(0, TimeoutMessage(appName, podEvents))
      case RejectError(e) => Errored(0, e)
      case KeepWaiting =>
        match WaitForDeployment(ticks[1..], timeout, appName, podEvents)
        case Ready(k) => Ready(k + 1)
        case TimedOut(k, msg) => TimedOut(k + 1, msg)
        case Errored(k, e) => Errored(k + 1, e)
        case Pending => Pending
  }

  /** The poll is bounded: once some tick fires past the timeout, the wait
      has settled at or before that tick. */
  lemma {:induction false} WaitIsBounded(ticks: seq<Tick>, timeout: int, appName: string, podEvents: string, k: nat)
    requires k < |ticks| && ticks[k].elapsed > timeout
    ensures var r := WaitForDeployment(ticks, timeout, appName, podEvents);
            !r.Pending? && r.at <= k
  {
    var r := WaitForDeployment(ticks, timeout, appName, podEvents);
    assert !OnTick(ticks[k], timeout).action.KeepWaiting?;
  }

  // ---------------------------------------------------------------------
  // Diagnostics: events of the most recent pod

  /** A pod as listed: name, creation time in milliseconds, phase. */
  datatype Pod = Pod(name: Option<string>, createdAt: int, phase: Option<string>)
  datatype Event = Event(eventType: Option<string>, reason: Option<string>, message: Option<string>)

  /** The pod the descending, stable sort by creation time puts first: the
      earliest-listed among those created last. */
  function LatestPod(pods: seq<Pod>): (k: nat)
    requires |pods| > 0
    ensures k < |pods|
    ensures forall j :: 0 <= j < |pods| ==> pods[j].createdAt <= pods[k].createdAt
    ensures forall j :: 0 <= j < k ==> pods[j].createdAt < pods[k].createdAt
  {
    if |pods| == 1 then 0
    else
      var k := LatestPod(pods[..|pods| - 1]);
      if pods[|pods| - 1].createdAt > pods[k].createdAt then |pods| - 1 else k
  }

  function FormatEvent(e: Event): string
  {
    "- " + Text.Show(e.eventType) + " (" + Text.Show(e.reason) + "): " + Text.Show(e.message)
  }

  function FormatEvents(events: seq<Event>): (lines: seq<string>)
    ensures |lines| == |events|
    ensures forall i :: 0 <= i < |events| ==> lines[i] == FormatEvent(events[i])
  {
    seq(|events|, i requires 0 <= i < |events| => FormatEvent(events[i]))
  }

  const NoPodsMessage := "No pods found for this deployment."
  const EventsUnavailableMessage := "Could not retrieve pod events."

  /** `getLatestPodEvents`, given the replies to the pod listing and to the
      event listing for the chosen pod. Never fails: any error becomes a
      fixed message. */
  function LatestPodEvents(pods: Result<seq<Pod>, ApiError>, events: Result<seq<Event>, ApiError>): (r: string)
    ensures pods.Err? ==> r == EventsUnavailableMessage
    ensures pods == Ok([]) ==> r == NoPodsMessage
    ensures pods.Ok? && |pods.value| > 0 && events.Err? ==> r == EventsUnavailableMessage
    ensures pods.Ok? && |pods.value| > 0 && events == Ok([]) ==>
      var p := pods.value[LatestPod(pods.value)];
      r == "No events found for the latest pod " + Text.Show(p.name) + ". Pod status: " + Text.Show(p.phase)
    ensures pods.Ok? && |pods.value| > 0 && events.Ok? && |events.value| > 0 ==>
      r == Text.Join(FormatEvents(events.value), "\n")
  {
    match pods
    case Err(_) => EventsUnavailableMessage
    case Ok(items) =>
      if |items| == 0 then NoPodsMessage
      else
        var latest := items[LatestPod(items)];
        match events
        case Err(_) => EventsUnavailableMessage
        case Ok(evs) =>
          if |evs| == 0 then
            "No events found for the latest pod " + Text.Show(latest.name) + ". Pod status: " + Text.Show(latest.phase)
          else Text.Join(FormatEvents(evs), "\n")
  }

  predicate SingleLine(o: Option<string>)
  {
    o.None? || '\n' !in o.value
  }

  lemma FormatEventIsOneLine(e: Event)
    requires SingleLine(e.eventType) && SingleLine(e.reason) && SingleLine(e.message)
    ensures '\n' !in FormatEvent(e)
  {
  }

  /** With single-line event fields, the digest has exactly one line per
      event, in order, each `- type (reason): message`. */
  lemma EventDigestLines(pods: seq<Pod>, events: seq<Event>)
    requires |pods| > 0 && |events| > 0
    requires forall i :: 0 <= i < |events| ==>
      SingleLine(events[i].eventType) && SingleLine(events[i].reason) && SingleLine(events[i].message)
    ensures Text.Split(LatestPodEvents(Ok(pods), Ok(events)), '\n') == FormatEvents(events)
  {
    var lines := FormatEvents(events);
    forall i | 0 <= i < |lines| ensures '\n' !in lines[i] {
      FormatEventIsOneLine(events[i]);
    }
    Text.SplitJoin(lines, '\n');
  }

  // ---------------------------------------------------------------------
  // Best-effort namespace deletion

  predicate InNamespace(k: Key, name: string)
  {
    k == NamespaceKey(name) || (k.kind != NamespaceKind && k.namespace == name)
  }

  /** `cleanupNamespace`: deleting a namespace removes it and everything in
      it; a failed delete is logged and swallowed, so the result is always a
      cluster, never an error. */
  function CleanupNamespace(c: Cluster, name: string, delete: ApiOutcome): (r: Cluster)
    ensures r.Keys <= c.Keys
    ensures forall k :: k in r ==> r[k] == c[k]
    ensures delete.Done? ==> forall k :: k in c ==> (k in r <==> !InNamespace(k, name))
    ensures delete.Failed? ==> r == c
  {
    match delete
    case Done => map k | k in c && !InNamespace(k, name) :: c[k]
    case Failed(_) => c
  }
}

=== FILE: lifecycle.dfy ===
/** The TTL reaper: every five minutes, deployments in status `active` that
    are older than the configured lifetime have their namespace deleted and
    are marked `destroyed`. Each record is handled on its own: a failed
    delete or a failed status update for one does not stop the others. */
module Lifecycle {
  import opened Wrappers
  import opened Records
  import K = Kubernetes
  import DJ = DeployJob
  import DS = DeploymentsService

  const DefaultTtlMinutes := 60
  const MsPerMinute := 60000

  /** The configured lifetime in minutes, 60 when not configured. */
  function TtlMinutes(configured: Option<int>): (ttl: int)
    ensures configured.None? ==> ttl == DefaultTtlMinutes
    ensures configured.Some? ==> ttl == configured.value
  {
    configured.GetOr(DefaultTtlMinutes)
  }

  /** Integer form of "minutes since creation exceed the lifetime". */
  predicate IsExpired(r: DeploymentRecord, now: int, ttl: int)
  {
    now - r.createdAt > ttl * MsPerMinute
  }

  /** The service divides the age in milliseconds by 60000 and compares the
      quotient with the lifetime in minutes; over exact arithmetic that is
      the integer comparison used here. */
  lemma MinutesComparisonIsExact(ageMs: int, ttl: int)
    ensures (ageMs as real) / 60000.0 > ttl as real <==> ageMs > ttl * MsPerMinute
  {
    var q := (ageMs as real) / 60000.0;
    assert ageMs as real == q * 60000.0;
    assert (ttl * MsPerMinute) as real == (ttl as real) * 60000.0;
    if q > ttl as real {
      assert q * 60000.0 > (ttl as real) * 60000.0;
    } else {
      assert q * 60000.0 <= (ttl as real) * 60000.0;
    }
  }

  predicate IsCandidate(r: DeploymentRecord, now: int, ttl: int)
  {
    r.status == Active && IsExpired(r, now, ttl)
  }

  /** The rows fetched with status `active`, filtered down to the expired
      ones, in table order. */
  function Candidates(t: Table, now: int, ttl: int): (c: Table)
    ensures |c| <= |t|
    ensures forall r :: r in c <==> r in t && IsCandidate(r, now, ttl)
  {
    if |t| == 0 then []
    else
      assert t == [t[0]] + t[1..];
      (if IsCandidate(t[0], now, ttl) then [t[0]] else []) + Candidates(t[1..], now, ttl)
  }

  /** Filtering keeps table order: a row added at the end is a candidate
      at the end, or not at all. */
  lemma {:induction false} CandidatesSnoc(t: Table, row: DeploymentRecord, now: int, ttl: int)
    ensures Candidates(t + [row], now, ttl)
            == Candidates(t, now, ttl) + (if IsCandidate(row, now, ttl) then [row] else [])
  {
    if |t| > 0 {
      assert (t + [row])[1..] == t[1..] + [row];
      CandidatesSnoc(t[1..], row, now, ttl);
    } else {
      assert (t + [row])[1..] == [];
    }
  }

  /** The injected outcomes of one sweep: whether the fetch fails, which
      namespace deletions fail, and which ids' status updates fail. */
  datatype SweepReplies = SweepReplies(fetchFails: bool, deleteFails: set<string>, updateFails: set<string>)

  /** `cleanupNamespace(deployment.namespace)`: a row without a namespace
      has nothing the client can delete, which the cleanup swallows like any
      other failure. */
  function CleanupRow(c: K.Cluster, namespace: Option<string>, deleteFails: set<string>): (r: K.Cluster)
    ensures r.Keys <= c.Keys
    ensures forall k :: k in r ==> r[k] == c[k]
    ensures namespace.Some? && namespace.value !in deleteFails ==> Cleared(r, namespace.value)
    ensures forall k :: k in c && !Deletes(namespace, deleteFails, k) ==> k in r
  {
    match namespace
    case None => c
    case Some(n) => K.CleanupNamespace(c, n, if n in deleteFails then K.Failed(K.NotFound) else K.Done)
  }

  /** The row's namespace delete succeeds and takes `k` with it. */
  predicate Deletes(namespace: Option<string>, deleteFails: set<string>, k: K.Key)
  {
    namespace.Some? && namespace.value !in deleteFails && K.InNamespace(k, namespace.value)
  }

  /** The cluster after `cleanupNamespace` has run for each of the rows'
      namespaces, in order. */
  function CleanupAll(c: K.Cluster, namespaces: seq<Option<string>>, deleteFails: set<string>): (r: K.Cluster)
    ensures r.Keys <= c.Keys
    ensures forall k :: k in r ==> r[k] == c[k]
    ensures forall j :: 0 <= j < |namespaces| && namespaces[j].Some? && namespaces[j].value !in deleteFails ==>
              Cleared(r, namespaces[j].value)
    ensures forall k :: k in c && (forall j :: 0 <= j < |namespaces| ==> !Deletes(namespaces[j], deleteFails, k)) ==>
              k in r
  {
    if |namespaces| == 0 then c
    else
      var init := namespaces[..|namespaces| - 1];
      var last := namespaces[|namespaces| - 1];
      var before := CleanupAll(c, init, deleteFails);
      var r := CleanupRow(before, last, deleteFails);
      assert forall j :: 0 <= j < |init| ==> init[j] == namespaces[j];
      r
  }

  /** Ids whose status update to `destroyed` goes through. */
  function DestroyedIds(expired: Table, updateFails: set<string>): set<string>
  {
    set d | d in expired && d.id !in updateFails :: d.id
  }

  lemma DestroyedIdsStep(expired: Table, i: nat, updateFails: set<string>)
    requires i < |expired|
    ensures DestroyedIds(expired[..i + 1], updateFails) ==
            DestroyedIds(expired[..i], updateFails)
            + (if expired[i].id !in updateFails then {expired[i].id} else {})
  {
    assert expired[..i + 1] == expired[..i] + [expired[i]];
  }

  /** Reference result of a sweep on the table. */
  function SweptTable(t: Table, now: int, ttl: int, updateFails: set<string>): Table
  {
    var ids := DestroyedIds(Candidates(t, now, ttl), updateFails);
    seq(|t|, j requires 0 <= j < |t| => if t[j].id in ids then t[j].(status := Destroyed) else t[j])
  }

  predicate Cleared(c: K.Cluster, n: string)
  {
    forall k :: k in c ==> !K.InNamespace(k, n)
  }

  /** `handleCron`: returns the table and cluster afterwards and the
      namespaces handed to `cleanupNamespace`, in order. The select names no
      ordering, so the store's order is unspecified; table order stands for
      it here. */
  method HandleCron(table: Table, cluster: K.Cluster, now: int, ttl: int, replies: SweepReplies)
    returns (table': Table, cluster': K.Cluster, cleaned: seq<Option<string>>)
    ensures replies.fetchFails ==> table' == table && cluster' == cluster && cleaned == []
    ensures !replies.fetchFails ==>
      var expired := Candidates(table, now, ttl);
      && table' == SweptTable(table, now, ttl, replies.updateFails)
      && |cleaned| == |expired|
      && (forall k :: 0 <= k < |expired| ==> cleaned[k] == expired[k].namespace)
      && (forall k :: 0 <= k < |expired| && expired[k].namespace.Some?
                      && expired[k].namespace.value !in replies.deleteFails ==>
            Cleared(cluster', expired[k].namespace.value))
    ensures cluster'.Keys <= cluster.Keys
    ensures forall k :: k in cluster' ==> cluster'[k] == cluster[k]
    ensures forall k :: k in cluster && (forall j :: 0 <= j < |cleaned| ==> !Deletes(cleaned[j], replies.deleteFails, k)) ==>
      k in cluster'
  {
    if replies.fetchFails {
      return table, cluster, [];
    }
    var expired := Candidates(table, now, ttl);
    table', cluster', cleaned := table, cluster, [];
    var i := 0;
    while i < |expired|
      invariant 0 <= i <= |expired|
      invariant cleaned == NamespacesOf(expired[..i])
      invariant SweptUpTo(table, table', expired[..i], replies.updateFails)
      invariant cluster' == CleanupAll(cluster, cleaned, replies.deleteFails)
    {
      var d := expired[i];
      cluster' := CleanupRow(cluster', d.namespace, replies.deleteFails);
      CleanupAllStep(cluster, cleaned, d.namespace, replies.deleteFails);
      NamespacesOfStep(expired, i);
      cleaned := cleaned + [d.namespace];
      SweepStep(table, table', expired, i, replies.updateFails);
      if d.id !in replies.updateFails {
        table' := UpdateById(table', d.id, Patch(Destroyed, None, None));
      }
      i := i + 1;
    }
    assert expired[..i] == expired;
    SweptAll(table, table', now, ttl, replies.updateFails);
    CleanupClearsExpired(cluster, cluster', cleaned, expired, replies.deleteFails);
  }

  /** The namespaces of the rows, in order. */
  function NamespacesOf(rows: Table): (ns: seq<Option<string>>)
    ensures |ns| == |rows|
    ensures forall k :: 0 <= k < |rows| ==> ns[k] == rows[k].namespace
  {
    if |rows| == 0 then []
    else NamespacesOf(rows[..|rows| - 1]) + [rows[|rows| - 1].namespace]
  }

  lemma NamespacesOfStep(rows: Table, i: nat)
    requires i < |rows|
    ensures NamespacesOf(rows[..i + 1]) == NamespacesOf(rows[..i]) + [rows[i].namespace]
  {
    assert rows[..i + 1][..i] == rows[..i];
  }

  lemma CleanupAllStep(c: K.Cluster, namespaces: seq<Option<string>>, n: Option<string>, deleteFails: set<string>)
    ensures CleanupAll(c, namespaces + [n], deleteFails) == CleanupRow(CleanupAll(c, namespaces, deleteFails), n, deleteFails)
  {
    assert (namespaces + [n])[..|namespaces|] == namespaces;
  }

  /** Once every expired row is handled the table is the reference sweep. */
  lemma SweptAll(t: Table, t': Table, now: int, ttl: int, updateFails: set<string>)
    requires SweptUpTo(t, t', Candidates(t, now, ttl), updateFails)
    ensures t' == SweptTable(t, now, ttl, updateFails)
  {
  }

  /** Each expired row whose namespace delete succeeds leaves that
      namespace cleared. */
  lemma CleanupClearsExpired(c: K.Cluster, c': K.Cluster, cleaned: seq<Option<string>>,
                             expired: Table, deleteFails: set<string>)
    requires c' == CleanupAll(c, cleaned, deleteFails)
    requires |cleaned| == |expired|
    requires forall k :: 0 <= k < |expired| ==> cleaned[k] == expired[k].namespace
    ensures forall k :: 0 <= k < |expired| && expired[k].namespace.Some?
                        && expired[k].namespace.value !in deleteFails ==>
              Cleared(c', expired[k].namespace.value)
  {
  }

  /** `t'` is `t` with the rows of `done` whose update went through marked
      `destroyed`. */
  predicate SweptUpTo(t: Table, t': Table, done: Table, updateFails: set<string>)
  {
    && |t'| == |t|
    && forall j :: 0 <= j < |t| ==>
         t'[j] == if t[j].id in DestroyedIds(done, updateFails) then t[j].(status := Destroyed) else t[j]
  }

  /** Handling one more expired row keeps the table in step with the rows
      handled so far. */
  lemma SweepStep(t: Table, t': Table, expired: Table, i: nat, updateFails: set<string>)
    requires i < |expired|
    requires SweptUpTo(t, t', expired[..i], updateFails)
    ensures var d := expired[i];
            SweptUpTo(t, if d.id !in updateFails then UpdateById(t', d.id, Patch(Destroyed, None, None)) else t',
                      expired[..i + 1], updateFails)
  {
    DestroyedIdsStep(expired, i, updateFails);
  }

  /** A sweep changes a row only by marking it `destroyed`, and it changes
      it exactly when the row is active, past its lifetime, and its update
      goes through (ids being unique). */
  lemma {:induction false} SweepChangesExactlyExpired(t: Table, now: int, ttl: int, updateFails: set<string>)
    requires UniqueIds(t)
    ensures var t' := SweptTable(t, now, ttl, updateFails);
            && |t'| == |t|
            && (forall j :: 0 <= j < |t| ==> t'[j] == t[j] || t'[j] == t[j].(status := Destroyed))
            && (forall j :: 0 <= j < |t| ==>
                  (t'[j] != t[j] <==> IsCandidate(t[j], now, ttl) && t[j].id !in updateFails))
  {
    var expired := Candidates(t, now, ttl);
    var ids := DestroyedIds(expired, updateFails);
    forall j | 0 <= j < |t|
      ensures t[j].id in ids <==> IsCandidate(t[j], now, ttl) && t[j].id !in updateFails
    {
      if t[j].id in ids {
        var d :| d in expired && d.id !in updateFails && d.id == t[j].id;
        assert d in t;
        var m :| 0 <= m < |t| && t[m] == d;
        assert m == j;
      }
    }
  }

  /** A namespace holds more than one application: a successful delete of
      namespace `n` removes the Deployment of every application in `n`, not
      only the reaped row's own. */
  lemma ReapingTakesSiblingApps(c: K.Cluster, n: string, otherApp: string, deleteFails: set<string>)
    requires n !in deleteFails
    ensures K.DeploymentKey(n, otherApp) !in CleanupRow(c, Some(n), deleteFails)
  {
  }
  /** The reaper deletes the namespace stored on the row. Only `create`
      stores one, the placeholder; the deploy worker's status writes keep
      it. So the cleanup of a deployed row never reaches the worker's
      `user-` namespace, and every resource there survives it. */
  lemma WorkerNamespaceNeverReaped(rec: DeploymentRecord, url: string, c: K.Cluster, deleteFails: set<string>)
    requires rec.namespace == Some(DS.PlaceholderNamespace)
    ensures var stored := ApplyPatch(ApplyPatch(rec, DJ.StatusPatch(Deploying, None)),
                                     DJ.StatusPatch(Running, Some(url)));
            && stored.namespace == Some(DS.PlaceholderNamespace)
            && forall k :: k in c && K.InNamespace(k, DJ.NamespaceName(rec.userId)) ==>
                 k in CleanupRow(c, stored.namespace, deleteFails)
  {
    var ns := DJ.NamespaceName(rec.userId);
    assert ns[..5] == "user-";
    assert DS.PlaceholderNamespace[..5] == "rando";
    assert ns != DS.PlaceholderNamespace;
    var stored := ApplyPatch(ApplyPatch(rec, DJ.StatusPatch(Deploying, None)), DJ.StatusPatch(Running, Some(url)));
    forall k | k in c && K.InNamespace(k, ns)
      ensures !Deletes(stored.namespace, deleteFails, k)
    {
      assert !K.InNamespace(k, DS.PlaceholderNamespace);
    }
  }


  /** Records the deploy stage marks `running` are never reaped: the sweep
      only looks at status `active`. */
  lemma RunningNeverReaped(t: Table, now: int, ttl: int, updateFails: set<string>, j: nat)
    requires UniqueIds(t) && j < |t| && t[j].status == Running
    ensures SweptTable(t, now, ttl, updateFails)[j] == t[j]
  {
    SweepChangesExactlyExpired(t, now, ttl, updateFails);
  }
}

=== FILE: records.dfy ===
/** The `deployments` table as the services see it: a list of rows, updated
    by id with partial patches. */
module Records {
  import opened Wrappers

  datatype Status =
    | Provisioning | Active | Building | Deploying | Running
    | DeployFailed | Failed | Destroyed

  datatype DeploymentRecord = DeploymentRecord(
    id: string,
    userId: string,
    project: string,
    projectName: string,
    branch: string,
    dockerfilePath: string,
    namespace: Option<string>,
    url: Option<string>,
    status: Status,
    createdAt: int)

  type Table = seq<DeploymentRecord>

  /** An `update(...)` payload: a status, and optionally namespace and url. */
  datatype Patch = Patch(status: Status, namespace: Option<string>, url: Option<string>)

  function ApplyPatch(r: DeploymentRecord, p: Patch): (r': DeploymentRecord)
    ensures r'.status == p.status
    ensures r'.namespace == (if p.namespace.Some? then p.namespace else r.namespace)
    ensures r'.url == (if p.url.Some? then p.url else r.url)
    ensures r'.(status := r.status, namespace := r.namespace, url := r.url) == r
  {
    r.(status := p.status,
       namespace := if p.namespace.Some? then p.namespace else r.namespace,
       url := if p.url.Some? then p.url else r.url)
  }

  /** `update(patch).eq('id', id)`: every row with that id is patched, the
      others are left as they are. */
  function UpdateById(t: Table, id: string, p: Patch): (t': Table)
    ensures |t'| == |t|
    ensures forall i :: 0 <= i < |t| && t[i].id == id ==> t'[i] == ApplyPatch(t[i], p)
    ensures forall i :: 0 <= i < |t| && t[i].id != id ==> t'[i] == t[i]
  {
    seq(|t|, i requires 0 <= i < |t| => if t[i].id == id then ApplyPatch(t[i], p) else t[i])
  }

  predicate UniqueIds(t: Table)
  {
    forall i, j :: 0 <= i < |t| && 0 <= j < |t| && t[i].id == t[j].id ==> i == j
  }
}

=== FILE: state.dfy ===
/** Single-use, time-bounded correlation tokens for the sign-in round trip.

    The store maps a token to the user it was issued for and the time it was
    issued. The clock is passed in as milliseconds; the random token is
    passed in too (the service draws 20 random bytes and hex-encodes them). */
module StateTokens {
  import opened Wrappers

  datatype Payload = Payload(userId: string, createdAt: int)

  type Store = map<string, Payload>

  /** Five minutes, in milliseconds. */
  const StateTtlMs := 5 * 60 * 1000

  /** Strictly older than the lifetime: a token exactly at the limit is
      still good. */
  predicate Expired(p: Payload, now: int)
  {
    now - p.createdAt > StateTtlMs
  }

  /** `generateState`: records the token for the user at the current time;
      every other entry is untouched. */
  function Generate(store: Store, userId: string, token: string, now: int): (r: Store)
    ensures r.Keys == store.Keys + {token}
    ensures r[token] == Payload(userId, now)
    ensures forall t :: t in store && t != token ==> r[t] == store[t]
    ensures token !in store ==> |r| == |store| + 1
  {
    store[token := Payload(userId, now)]
  }

  /** `cleanupExpiredStates`: drops exactly the expired entries. */
  function Sweep(store: Store, now: int): (r: Store)
    ensures forall t :: t in r <==> t in store && !Expired(store[t], now)
    ensures forall t :: t in r ==> r[t] == store[t]
  {
    map t | t in store && !Expired(store[t], now) :: store[t]
  }

  datatype Verdict = Verdict(userId: Option<string>, store: Store)

  /** `verifyStateAndGetUserId`: sweep at `sweepNow`, then look the token
      up, delete it, and check its age against the second clock reading
      `checkNow`. */
  function Verify(store: Store, token: string, sweepNow: int, checkNow: int): (r: Verdict)
    ensures var swept := Sweep(store, sweepNow);
            && (token !in swept ==> r == Verdict(None, swept))
            && (token in swept ==> r.store == swept - {token})
    ensures r.userId.Some? <==>
              token in store && !Expired(store[token], sweepNow) && !Expired(store[token], checkNow)
    ensures r.userId.Some? ==> r.userId.value == store[token].userId
    ensures token !in r.store
  {
    var swept := Sweep(store, sweepNow);
    if token !in swept then Verdict(None, swept)
    else
      var payload := swept[token];
      var rest := swept - {token};
      if checkNow - payload.createdAt > StateTtlMs then Verdict(None, rest)
      else Verdict(Some(payload.userId), rest)
  }

  /** A token is single-use: once verified (successfully or not), a second
      verification of it fails, whatever the clocks say. */
  lemma SingleUse(store: Store, token: string, n1: int, n2: int, n3: int, n4: int)
    ensures Verify(Verify(store, token, n1, n2).store, token, n3, n4).userId == None
  {
  }

  /** A freshly issued token verifies to its user while it is at most five
      minutes old, and is consumed by doing so. */
  lemma GenerateThenVerify(store: Store, userId: string, token: string, issued: int, sweepNow: int, checkNow: int)
    requires issued <= sweepNow <= checkNow <= issued + StateTtlMs
    ensures var r := Verify(Generate(store, userId, token, issued), token, sweepNow, checkNow);
            r.userId == Some(userId) && token !in r.store
  {
  }

  /** The limit is inclusive: exactly five minutes old still verifies, one
      millisecond more does not. */
  lemma TtlBoundary(userId: string, token: string, issued: int)
    ensures Verify(map[token := Payload(userId, issued)], token, issued, issued + StateTtlMs).userId == Some(userId)
    ensures Verify(map[token := Payload(userId, issued)], token, issued, issued + StateTtlMs + 1).userId == None
  {
  }

  /** With one clock reading for both the sweep and the age check, the
      age check never rejects: anything it would reject was already swept. */
  lemma SingleClockAgeCheckUnreachable(store: Store, token: string, now: int)
    requires token in Sweep(store, now)
    ensures Verify(store, token, now, now).userId == Some(store[token].userId)
  {
  }

  /** With the second reading later than the first, the age check is
      reachable: a token that survives the sweep can still be refused. */
  lemma TwoClocksAgeCheckReachable(userId: string, token: string)
    ensures var store := map[token := Payload(userId, 0)];
            && token in Sweep(store, StateTtlMs)
            && Verify(store, token, StateTtlMs, StateTtlMs + 1).userId == None
  {
  }
}

=== FILE: text.dfy ===
/** The few JavaScript string operations the services rely on, with the
    engine's edge cases: `split` on a one-character separator, `join`,
    `substring`, `trim`, and template interpolation of a possibly undefined
    value. */
module Text {
  import opened Wrappers

  /** Template-literal rendering of a value that may be `undefined`. */
  function Show(o: Option<string>): (r: string)
    ensures o.Some? ==> r == o.value
    ensures o.None? ==> r == "undefined"
  {
    match o
    case Some(s) => s
    case None => "undefined"
  }

  /** Position of the first occurrence of `c` in `s`. */
  function IndexOf(s: string, c: char): (i: nat)
    requires c in s
    ensures i < |s| && s[i] == c
    ensures c !in s[..i]
  {
    if s[0] == c then 0
    else
      assert s == [s[0]] + s[1..];
      var j := IndexOf(s[1..], c);
      assert s[..j + 1] == [s[0]] + s[1..][..j];
      j + 1
  }

  /** `parts.join(sep)`. */
  function Join(parts: seq<string>, sep: string): string
  {
    if |parts| == 0 then ""
    else if |parts| == 1 then parts[0]
    else parts[0] + sep + Join(parts[1..], sep)
  }

  /** `s.split(sep)` for a one-character separator: never empty, and no
      piece contains the separator. */
  function Split(s: string, sep: char): (parts: seq<string>)
    ensures |parts| >= 1
    ensures forall i :: 0 <= i < |parts| ==> sep !in parts[i]
    decreases |s|
  {
    if sep !in s then [s]
    else
      var i := IndexOf(s, sep);
      [s[..i]] + Split(s[i + 1..], sep)
  }

  /** `s.split(sep)[k]`: `undefined` past the end. */
  function Segment(s: string, sep: char, k: nat): (r: Option<string>)
    ensures r.Some? <==> k < |Split(s, sep)|
    ensures r.Some? ==> sep !in r.value
  {
    var parts := Split(s, sep);
    if k < |parts| then Some(parts[k]) else None
  }

  /** Splitting and re-joining on the same separator gives the string back. */
  lemma {:induction false} JoinSplit(s: string, sep: char)
    ensures Join(Split(s, sep), [sep]) == s
    decreases |s|
  {
    if sep in s {
      var i := IndexOf(s, sep);
      var rest := Split(s[i + 1..], sep);
      JoinSplit(s[i + 1..], sep);
      var parts := [s[..i]] + rest;
      assert parts[1..] == rest;
      assert Join(parts, [sep]) == s[..i] + [sep] + s[i + 1..];
      assert s == s[..i] + [sep] + s[i + 1..];
    }
  }

  lemma IndexOfAfter(p: string, sep: char, tail: string)
    requires sep !in p
    ensures sep in p + [sep] + tail
    ensures IndexOf(p + [sep] + tail, sep) == |p|
  {
    var s := p + [sep] + tail;
    assert s[|p|] == sep;
  }

  /** Joining separator-free pieces and splitting again gives the pieces back. */
  lemma {:induction false} SplitJoin(parts: seq<string>, sep: char)
    requires |parts| >= 1
    requires forall i :: 0 <= i < |parts| ==> sep !in parts[i]
    ensures Split(Join(parts, [sep]), sep) == parts
    decreases |parts|
  {
    if |parts| > 1 {
      var p := parts[0];
      var rest := parts[1..];
      var tail := Join(rest, [sep]);
      var s := p + [sep] + tail;
      assert Join(parts, [sep]) == s;
      IndexOfAfter(p, sep, tail);
      assert s[..|p|] == p;
      assert s[|p| + 1..] == tail;
      assert Split(s, sep) == [p] + Split(tail, sep);
      assert forall i :: 0 <= i < |rest| ==> sep !in rest[i] by {
        forall i | 0 <= i < |rest| ensures sep !in rest[i] {
          assert rest[i] == parts[i + 1];
        }
      }
      SplitJoin(rest, sep);
      assert parts == [p] + rest;
    }
  }

  /** The second `/`-segment of an `owner/name` pair is the name. */
  lemma SecondSegmentOfPair(owner: string, name: string)
    requires '/' !in owner && '/' !in name
    ensures Segment(owner + "/" + name, '/', 1) == Some(name)
  {
    var parts := [owner, name];
    assert Join(parts, "/") == owner + "/" + name by {
      assert parts[1..] == [name];
    }
    SplitJoin(parts, '/');
  }

  function Clamp(x: int, len: nat): (r: nat)
    ensures r <= len
    ensures 0 <= x <= len ==> r == x
  {
    if x < 0 then 0 else if x > len then len else x
  }

  /** `s.substring(start, end)`: both ends clamped to the string, swapped
      when given in the wrong order. */
  function Substring(s: string, start: int, end: int): (r: string)
    ensures |r| <= |s|
    ensures 0 == start <= end ==> r == s[..Clamp(end, |s|)]
  {
    var a := Clamp(start, |s|);
    var b := Clamp(end, |s|);
    if a <= b then s[a..b] else s[b..a]
  }

  /** The characters `String.prototype.trim` strips that can occur in
      command output: space, tab, line feed, carriage return, vertical tab,
      form feed. */
  predicate IsSpace(c: char)
  {
    c == ' ' || c == '\t' || c == '\n' || c == '\r' || c == 11 as char || c == 12 as char
  }

  function TrimStart(s: string): (r: string)
    ensures |r| <= |s| && r == s[|s| - |r|..]
    ensures forall i :: 0 <= i < |s| - |r| ==> IsSpace(s[i])
    ensures r == [] || !IsSpace(r[0])
  {
    if |s| > 0 && IsSpace(s[0]) then TrimStart(s[1..]) else s
  }

  function TrimEnd(s: string): (r: string)
    ensures |r| <= |s| && r == s[..|r|]
    ensures forall i :: |r| <= i < |s| ==> IsSpace(s[i])
    ensures r == [] || !IsSpace(r[|r| - 1])
  {
    if |s| > 0 && IsSpace(s[|s| - 1]) then TrimEnd(s[..|s| - 1]) else s
  }

  /** `s.trim()`: the longest infix with no surrounding whitespace. */
  function Trim(s: string): (r: string)
    ensures |r| <= |s|
    ensures r == [] || (!IsSpace(r[0]) && !IsSpace(r[|r| - 1]))
    ensures SpacedInfix(s, r)
    ensures |s| > 0 && !IsSpace(s[0]) && !IsSpace(s[|s| - 1]) ==> r == s
  {
    TrimIsInfix(s);
    TrimEnd(TrimStart(s))
  }

  /** The trimmed string sits between a whitespace prefix and a whitespace
      suffix of the input. */
  lemma TrimIsInfix(s: string)
    ensures SpacedInfix(s, TrimEnd(TrimStart(s)))
  {
    var t := TrimStart(s);
    var r := TrimEnd(t);
    InfixBetweenSpaces(s, t, r);
    InfixWitness(s, r, |s| - |t|, |s| - |t| + |r|);
  }

  /** An infix `s[i..j]` with whitespace on both sides is a witness for the
      existential form. */
  lemma InfixWitness(s: string, r: string, i: int, j: int)
    requires 0 <= i <= j <= |s| && r == s[i..j]
    requires forall k :: 0 <= k < i ==> IsSpace(s[k])
    requires forall k :: j <= k < |s| ==> IsSpace(s[k])
    ensures SpacedInfix(s, r)
  {
    assert forall k :: 0 <= k < i || j <= k < |s| ==> IsSpace(s[k]);
  }

  /** `r` is an infix of `s` and everything of `s` around it is whitespace. */
  ghost predicate SpacedInfix(s: string, r: string)
  {
    exists i, j :: 0 <= i <= j <= |s| && r == s[i..j]
                   && forall k :: 0 <= k < i || j <= k < |s| ==> IsSpace(s[k])
  }

  /** A prefix `r` of a suffix `t` of `s`, where what `t` drops and what `r`
      drops are whitespace, is an infix of `s` between whitespace. */
  lemma InfixBetweenSpaces(s: string, t: string, r: string)
    requires |t| <= |s| && t == s[|s| - |t|..]
    requires |r| <= |t| && r == t[..|r|]
    requires forall k :: |r| <= k < |t| ==> IsSpace(t[k])
    ensures r == s[|s| - |t|..|s| - |t| + |r|]
    ensures forall k :: |s| - |t| + |r| <= k < |s| ==> IsSpace(s[k])
  {
    var i := |s| - |t|;
    forall k | i + |r| <= k < |s| ensures IsSpace(s[k]) {
      assert s[k] == t[k - i];
    }
  }

  /** `toLowerCase` restricted to ASCII letters, as URL host parsing applies
      it. */
  function AsciiLower(s: string): (r: string)
    ensures |r| == |s|
    ensures forall i :: 0 <= i < |s| ==>
      r[i] == (if 'A' <= s[i] <= 'Z' then (s[i] as int + 32) as char else s[i])
  {
    seq(|s|, i requires 0 <= i < |s| => if 'A' <= s[i] <= 'Z' then (s[i] as int + 32) as char else s[i])
  }

  /** Trimming twice is trimming once. */
  lemma TrimIdempotent(s: string)
    ensures Trim(Trim(s)) == Trim(s)
  {
  }
}

=== FILE: wrappers.dfy ===
/** Option and Result, the two failure-carrying shapes the services use:
    a JavaScript `undefined`/`null` becomes `None`, a thrown error becomes `Err`. */
module Wrappers {

  datatype Option<+T> = None | Some(value: T) {

    /** The value, or `default` when absent (JavaScript's `x || default` on a
        value that is never falsy when present). */
    function GetOr(default: T): T {
      match this
      case Some(v) => v
      case None => default
    }
  }

  datatype Result<+T, +E> = Ok(value: T) | Err(error: E)
}
